=== FILE: README.md ===
# Mini Postman — request relay and history, modelled in Dafny

Mini Postman is a small Next.js REST client. A browser form collects a URL, an HTTP method, header
rows and a body. The page posts them to a relay endpoint, `POST /api/send-request`. The relay
performs the request with axios, stores a history record through MikroORM in SQLite, and returns
the remote response. A second endpoint, `GET /api/history?page=&limit=`, answers one page of the
stored records, newest first. The page shows the list with status badges and Previous/Next
controls, and can replay an entry back into the form.

This project models that pipeline as pure functions over immutable data:

- `common.dfy`: `Option`, `Result`, `Min`, `Max`.
- `js_text.dfy` (`JsText`): the string operations the code relies on. These are
  `trim` with the ECMAScript white-space set, `startsWith`, `endsWith`, `includes`,
  ASCII `toLowerCase`/`toUpperCase`, `String(n)` for integers, and `parseInt(s, 10)`.
- `js_value.dfy` (`JsValue`): JavaScript values after JSON decoding, together with
  truthiness, `typeof`, property read and write on insertion-ordered objects,
  `String(v)`, `Number(v)` and `Object.entries`. `JSON.stringify`, its pretty-printing
  form and `JSON.parse` are the fields of an uninterpreted `JsonCodec`.
- `request_history_entity.dfy` (`RequestHistoryEntity`): the `RequestHistory` record, its
  constructor and its column schema.
- `history_store.dfy` (`HistoryStore`): the table as a sequence of records. It covers
  `persistAndFlush` with autoincrement ids and saves that may fail, and `findAndCount`
  with `ORDER BY createdAt DESC LIMIT/OFFSET`.
- `db.dfy` (`Db`): `initializeOrm`, `getORM` and `getEM`, as a sequential state machine
  over `(orm, pending, attempts)`. Each of the first two appears twice: as written, and
  with its connection checks awaited.
- `send_request_route.dfy` (`SendRequestRoute`): `POST /api/send-request`. It is a function
  of five inputs:
  - the `getEM` result;
  - the parsed body;
  - what happened on the wire;
  - the results of the history saves;
  - the clock reading.

  It returns the reply, the outbound request (if one was made) and the records it attempted
  to save.
- `url_query.dfy` (`UrlQuery`): reading a query parameter the way
  `new URL(url).searchParams.get(name)` does.
- `history_route.dfy` (`HistoryRoute`): `GET /api/history`.
- `request_form.dfy` (`RequestForm`): the form's starting values, header-row editing, the
  header map, the JSON-body decision, and the object the page serialises.
- `history_list.dfy` (`HistoryList`): the status badge, the panels, and the pagination
  controls.
- `page.dfy` (`HomePage`): history fetching and its errors, the send handler, page
  changes, and replay.
- `pipeline.dfy` (`Pipeline`): properties that span several files:
  - sending and then replaying restores the URL, method, header map and a plain-text body;
  - what the page shows for each relay reply;
  - every query the page issues is accepted by the history endpoint;
  - a newly saved record leads page 1.

Where the code and its surrounding description differ, the model follows the code. There are
four such places:
- The history route's error mapping tests lower-cased messages, so it also matches
  "ORM instance is not available" in any letter case.
- The form's body-clearing initialiser is passed to `useState`, not `useEffect`, so it runs
  once, on mount. Switching methods later never clears the body
  (`RequestForm.MethodSwitchKeepsBody`).
- `isConnected()` is asynchronous in MikroORM, and `lib/db.js` calls it without `await`
  (lines 18 and 54). A promise is truthy, so both negated checks are always false:
  `initializeOrm` never calls `connect()`, and `getORM` hands back any instance it holds.
  A connection that drops later is therefore handed back disconnected
  (`Db.StaleInstanceAfterDisconnect`). Awaiting the checks would not cure this: a successful
  initialisation leaves its promise set, and `getORM` awaits that same promise again
  (`Db.StaleEvenWhenAwaited`). So the un-awaited check at line 54 makes no observable
  difference, while the one at line 18 does (see Findings).
- A remote status outside 100..599 makes axios reject, and the catch block builds an
  "External API Error" reply with that status. `NextResponse.json` builds a `Response`,
  whose constructor refuses any status outside 200..599 with a RangeError. The framework
  then answers a bare 500, and the page's `res.json()` fails before the `ok` check, so the
  page shows "Request Failed" (`Pipeline.RefusedStatusShowsRequestFailed`).

## Model

| member | source | states |
|---|---|---|
| JsText.ParseIntRoundTrip | app/api/history/route.js:41-42 | `parseInt(s, 10)` reads back the decimal numeral of every integer, negative ones included (unbounded integers: the double rounding above 2^53 and the exponent form from 1e21 are not modelled) |
| JsText.ParseIntNaN | app/api/history/route.js:44 | `parseInt` is NaN exactly when no digit follows the leading white space and optional sign, e.g. "", "abc", "-", "+x"; the route refuses such a page |
| JsValue.StringToNumberRoundTrip | app/page.js:35-36 | `Number(s)` reads back the decimal numeral of any integer (unbounded integers: the double rounding above 2^53 and the exponent form from 1e21 are not modelled) |
| JsValue.Assign | app/components/RequestForm.jsx:48 | after `acc[key] = value` the key reads as the value and every other key reads as before |
| JsValue.AssignFreshKey | app/components/RequestForm.jsx:48 | assigning a key the object lacks appends it after the existing properties |
| JsValue.AssignKeepsDistinct | app/components/RequestForm.jsx:48 | assignment keeps keys distinct and adds no property other than the assigned one |
| RequestHistoryEntity.NewRecord | lib/entities/RequestHistory.entity.js:4-21 | the seven positional arguments land in method, url, requestHeaders, requestBody, responseStatus, responseHeaders, responseBody in that order; createdAt is the construction time; no id is set |
| RequestHistoryEntity.NonNullableColumns | lib/entities/RequestHistory.entity.js:27-37 | exactly id, method, url and createdAt are non-nullable; the other five columns are nullable |
| RequestHistoryEntity.NewRecordInsertable | lib/entities/RequestHistory.entity.js:28-36 | a freshly constructed record can be inserted exactly when its url is neither null nor undefined |
| HistoryStore.Persist | lib/entities/RequestHistory.entity.js:28 | a successful save appends the record with the next autoincrement id; a failed save leaves the table unchanged; ids stay consistent |
| HistoryStore.PersistAll | app/api/send-request/route.js:91-152 | the saves of one request append exactly the writes whose saves succeed, in order, under consecutive ids from nextId, and nextId advances by their number |
| HistoryStore.PersistAllKeepsValid | lib/entities/RequestHistory.entity.js:28 | ids stay unique and below nextId through every sequence of saves |
| HistoryStore.SortNewestFirst | app/api/history/route.js:74 | the result is ordered by createdAt, newest first, and is a permutation of the table |
| HistoryStore.InsertKeepsNewestFirst | app/api/history/route.js:74 | inserting one row into a newest-first list keeps it newest first |
| HistoryStore.SortChronological | app/api/history/route.js:74 | rows written in chronological order come back in reverse; rows with equal createdAt follow the modelled tie order, later-inserted first |
| HistoryStore.Window | app/api/history/route.js:75-76 | LIMIT/OFFSET: the length is min(limit, max(0, n − offset)) and element i is row offset + i |
| HistoryStore.FindAndCount | app/api/history/route.js:70-78 | the count is the table size; the items are the window of the newest-first table, ordered and drawn from the table |
| Db.InitializeOrm | lib/db.js:8-51 | as written: creates the instance, never calls connect, then runs the safe schema update with dropTables false; succeeds iff creation and the update do, returning the instance as created; a creation failure is rethrown with no further call |
| Db.InitializeOrmAwaited | lib/db.js:17-36 | with the check awaited: connects iff the new instance is not connected; a success yields a connected instance and ends with the safe schema update; a connect failure is rethrown |
| Db.UnawaitedCheckSkipsConnect | lib/db.js:18 | an instance that init leaves disconnected is returned as written without connect and without error, while the awaited check connects it or fails with the connection error |
| Db.GetOrm | lib/db.js:53-88 | as written: a held instance is returned as is with no ORM call; without one, exactly one attempt starts, with the result and calls of initializeOrm; a success stores the instance and leaves the promise set; a failure clears the promise and keeps the old instance |
| Db.GetOrmAwaited | lib/db.js:53-88 | with both checks awaited: a connected instance is returned as is; a set promise is reused with no new attempt; otherwise exactly one awaited initialisation starts, with its result and calls |
| Db.Disconnect | lib/db.js:54 | a dropped connection keeps the same instance, marked disconnected, and leaves the pending promise and the attempt count as they were |
| Db.RetryAfterFailure | lib/db.js:48 | after a failed initialisation the next call starts a fresh attempt |
| Db.StaleInstanceAfterDisconnect | lib/db.js:54 | after a successful initialisation and a later disconnect, getORM as written returns the disconnected instance with no ORM call |
| Db.StaleEvenWhenAwaited | lib/db.js:69-76 | with the checks awaited, the promise left set after a success still makes getORM return the disconnected instance after a disconnect, with no new attempt |
| Db.EmErrorMessage | lib/db.js:106-116 | the "currently initializing" message iff the caught message contains "ORM instance is not available" or "initialization", else the generic fallback |
| Db.GetEm | lib/db.js:90-117 | an EntityManager is returned iff getORM succeeds and the fork succeeds, and it is forked from that instance; every failure throws one of the two database-service messages |
| Db.EmErrorMentionsDatabaseService | lib/db.js:110-116 | both messages getEM throws contain "Database service", and "database service" once lower-cased |
| SendRequestRoute.Axios | app/api/send-request/route.js:62-71 | a response resolves iff its status is in [100, 600); otherwise axios rejects with an error that carries the response iff there was one and marks whether the request was sent |
| SendRequestRoute.Normalize | app/api/send-request/route.js:29-50 | fails iff the body is null or the method is truthy but not a string; the method is lower-cased, defaulting to "get"; headers default to {}; the stored body is JSON text iff it is a truthy object; the outbound data is the original body |
| SendRequestRoute.SuccessRecord | app/api/send-request/route.js:78-89 | stores the remote status and headers, and the remote data as JSON text iff it is a truthy object |
| SendRequestRoute.ErrorRecord | app/api/send-request/route.js:131-151 | status is the remote status if present and non-zero, else 0; headers are the remote headers if truthy, else the synthetic error_detail; body is the remote data if truthy, else an error_detail with the message; object bodies become JSON text |
| SendRequestRoute.CatchReply | app/api/send-request/route.js:121-181 | the reply the catch block builds: with a remote response, its status and "External API Error" with the data (built but never delivered); unanswered: 500 "No response from external API"; otherwise 500 "Internal Server Error" with the message |
| SendRequestRoute.Post | app/api/send-request/route.js:7-193 | at most two writes, and writes only after an outbound call; a getEM failure answers 503 with nothing else; an unreadable body gets the catch reply with no call and no write |
| SendRequestRoute.UrlRequired | app/api/send-request/route.js:52-55 | for every body that can be destructured (object, string, number or array) whose method is absent, falsy or a string, a falsy url answers 400 "URL is required" with no outbound call and no write |
| SendRequestRoute.OutboundMatchesRecords | app/api/send-request/route.js:57-61 | the outbound method, url and headers are the normalised ones, the data is the original body, and every written record carries the same method, url, headers and stored body |
| SendRequestRoute.AcceptedStatusIsSuccess | app/api/send-request/route.js:83-102 | when the record's save succeeds, any status from 100 to 599 gives the 200 reply with status, text, headers and original data, and one record with the status and serialised data |
| SendRequestRoute.TransportFailureRecordsError | app/api/send-request/route.js:127-163 | a rejected outbound call writes exactly one error record and answers with the catch reply |
| SendRequestRoute.ErrorReplyClassification | app/api/send-request/route.js:165-181 | the reply as built: unanswered gives 500 "No response from external API"; unsent gives 500 "Internal Server Error" with the message; a refused status is copied into "External API Error" |
| SendRequestRoute.ExternalErrorOnlyForRefusedStatus | app/api/send-request/route.js:166-174 | an "External API Error" reply only ever carries a status outside 100..599 |
| SendRequestRoute.Deliver | app/api/send-request/route.js:189-191 | `NextResponse.json` delivers the reply unchanged iff its status is in 200..599; for any other status the caller gets a bare 500 |
| SendRequestRoute.ExternalErrorNeverDelivered | app/api/send-request/route.js:166-191 | every "External API Error" reply carries a status the Response constructor refuses, so the caller gets a bare 500 instead |
| SendRequestRoute.OtherRepliesDelivered | app/api/send-request/route.js:97-191 | every other reply of the handler reaches the caller as built |
| SendRequestRoute.WriteCount | app/api/send-request/route.js:103-163 | no write iff the outbound call is never reached; two writes iff the call succeeds and its save fails, and then the reply is 500 "Internal Server Error" |
| SendRequestRoute.ErrorSaveIsBestEffort | app/api/send-request/route.js:152-162 | the result of saving the error record never changes the outcome |
| SendRequestRoute.TableAfterRequest | app/api/send-request/route.js:91-162 | nothing is stored before the outbound call; after it the table gains at most one row, keyed nextId: the success record iff its save succeeds, otherwise the error record iff that save succeeds |
| SendRequestRoute.WritesAreInsertable | app/api/send-request/route.js:136-151 | every attempted record satisfies the schema's non-null columns and carries the request's timestamp |
| SendRequestRoute.StoreFailureShortCircuits | app/api/send-request/route.js:11-24 | when getEM fails the reply is 503 "Database service unavailable", with no outbound call and no write |
| HistoryRoute.StoreErrorReply | app/api/history/route.js:13-38 | 503 iff the lower-cased message mentions "database service" or "orm instance is not available", else 500 |
| HistoryRoute.QueryErrorReply | app/api/history/route.js:92-111 | a query failure is 500, with "Database query error" iff the error name contains "MikroORM", else "Failed to fetch history" |
| HistoryRoute.ParamOr | app/api/history/route.js:41-42 | an absent or empty parameter takes the default, and any other is used as given |
| HistoryRoute.CeilDiv | app/api/history/route.js:89 | the least page count covering the items: q·limit ≥ total, and (q − 1)·limit < total when q > 0 |
| HistoryRoute.ParsePageRequest | app/api/history/route.js:40-63 | the page is checked before the limit: NaN or < 1 gives "Invalid page number"; then NaN, < 1 or > 100 gives the limit error; otherwise both parsed values, in range |
| HistoryRoute.ServePage | app/api/history/route.js:65-91 | the items are the window at offset (page − 1)·limit of the newest-first table, ordered, from the table, min(limit, max(0, total − offset)) of them; the pagination echoes page and limit with the total and ceil(total/limit) |
| HistoryRoute.Get | app/api/history/route.js:5-113 | getEM failure first, then parameter errors (400), then query errors; a page is answered iff all three pass |
| HistoryRoute.Defaults | app/api/history/route.js:41-42 | an absent or empty page parses to 1 and an absent or empty limit to 10 |
| HistoryRoute.NumeralsAccepted | app/api/history/route.js:44-63 | every page numeral ≥ 1 and limit numeral 1..100 is accepted with its value |
| HistoryRoute.TotalPagesBounds | app/api/history/route.js:84-90 | page and limit are echoed; totalPages is 0 iff the table is empty, and otherwise the last page is non-empty |
| HistoryRoute.EmFailureIsUnavailable | app/api/history/route.js:18-30 | every error getEM throws is answered 503, never by the 500 branch |
| HistoryRoute.ChronologicalFirstPage | app/api/history/route.js:83-91 | rows A, B, C written in order fill page 1 of 10 as C, B, A with totalPages 1; equal timestamps follow the modelled tie order |
| HistoryRoute.NewestFirstScenario | app/api/history/route.js:40-91 | `?page=1&limit=10` over rows written A, B, C answers C, B, A; equal timestamps follow the modelled tie order |
| HistoryRoute.LimitTooLarge | app/api/history/route.js:54-63 | `limit=200` is refused with the limit error |
| RequestForm.StartingValues | app/components/RequestForm.jsx:16-23 | with no initial values: the jsonplaceholder URL, "GET", "" and one blank row; otherwise each given value unless it is falsy |
| RequestForm.ClearBodyOnMount | app/components/RequestForm.jsx:80-84 | on mount, GET and HEAD start with an empty body; other methods keep theirs |
| RequestForm.MethodSwitchKeepsBody | app/components/RequestForm.jsx:80-84 | switching from POST to GET and back after mount keeps the typed body |
| RequestForm.MethodSwitchesKeepBody | app/components/RequestForm.jsx:80-84 | any run of method choices ends on the last chosen method and keeps the body, URL and headers |
| RequestForm.AddHeaderRow | app/components/RequestForm.jsx:31-33 | exactly one blank row is appended and the existing rows are unchanged |
| RequestForm.RemoveHeaderRow | app/components/RequestForm.jsx:35-38 | exactly the row at the index is removed, the others keep their order, and an index out of range changes nothing |
| RequestForm.SetHeaderField | app/components/RequestForm.jsx:25-29 | editing changes only the chosen field of the chosen row |
| RequestForm.RemoveOnlyRow | app/components/RequestForm.jsx:159-164 | the only row can be removed unless it is blank, leaving no rows |
| RequestForm.HeaderMapLastWins | app/components/RequestForm.jsx:46-51 | the map holds a key iff some row carries it and it is non-empty, with the value of the last such row |
| RequestForm.HeaderMapWellFormed | app/components/RequestForm.jsx:46-51 | the header map has distinct, non-empty keys with string values |
| RequestForm.BlankKeysIgnored | app/components/RequestForm.jsx:47 | a row with an empty key leaves the map unchanged |
| RequestForm.SubmittedBody | app/components/RequestForm.jsx:53-70 | GET and HEAD send undefined; otherwise a non-empty body whose trimmed text is wrapped in {} or [] is parsed, falling back to the raw text, and any other body is sent as text |
| RequestForm.OptionsSendsHiddenBody | app/components/RequestForm.jsx:180 | OPTIONS hides the body editor yet still sends a leftover body |
| RequestForm.Submit | app/components/RequestForm.jsx:40-78 | nothing is sent iff the URL is falsy; otherwise the URL, method, header map and body decision are sent |
| RequestForm.WireObject | app/page.js:91 | the serialised request reads back the url, method, body and headers, and has a body property iff the body is not undefined |
| HistoryList.StatusBucket | app/components/HistoryList.jsx:96-102 | success iff 200..299, error iff ≥ 400, redirect iff 300..399, fallback iff below 200 or not a number |
| HistoryList.BucketOfNumber | app/components/HistoryList.jsx:96-102 | each numeric status falls in exactly the bucket of its range |
| HistoryList.Label | app/components/HistoryList.jsx:105 | the upper-cased method, a space, then the status, or "N/A" when it is falsy |
| HistoryList.SentinelBadge | app/components/HistoryList.jsx:96-105 | the failure sentinel 0 gets the fallback badge and is labelled "N/A" |
| HistoryList.ShowPanel | app/components/HistoryList.jsx:49-86 | loading takes precedence over the error, and the error over the empty panel; the empty panel shows iff nothing else applies and there are no items, and otherwise the list shows exactly the items |
| HistoryList.PreviousTarget | app/components/HistoryList.jsx:151-152 | Previous asks for page − 1, which is at least 1 when the button is enabled |
| HistoryList.NextTarget | app/components/HistoryList.jsx:159-160 | Next asks for page + 1, which is at most totalPages when the button is enabled |
| HistoryList.ControlsLeadToRows | app/components/HistoryList.jsx:151-160 | on a served page, enabled Next leads to a non-empty page and enabled Previous to a full one |
| HistoryList.ControlsShownIffSeveralPages | app/components/HistoryList.jsx:130 | on a served page the line-130 condition `totalPages > 1` holds iff the table holds more rows than one page; on a page past the end the empty panel is shown first, so no controls render there |
| HomePage.NumberOr | app/page.js:35-36 | `Number(x) \|\| d`: a non-zero number is kept, while 0 and NaN take the default |
| HomePage.FetchArguments | app/page.js:35-36 | the page is `Number(pageToFetch)` when that is a non-zero number, else 1, and the limit likewise with 10; neither is ever 0 |
| HomePage.HistoryUrl | app/page.js:38-40 | the query goes to /api/history with the page parameter first |
| HomePage.HistoryUrlCarriesQuery | app/page.js:38-40 | read with `searchParams.get`, the URL gives back the page numeral as `page` and the limit numeral as `limit` |
| UrlQuery.FirstValue | app/api/history/route.js:41-42 | a parameter is null iff no pair of the query carries its name |
| UrlQuery.TwoParams | app/api/history/route.js:41-42 | in `path?first=x&second=y` with no stray `?`, `=` or `&`, `searchParams.get` returns x for first and y for second |
| HomePage.HistoryErrorOf | app/page.js:52-56 | an error carrying `error` is kept; anything else becomes "Failed to fetch history" with its message or itself as details |
| HomePage.ApplyHistoryFetch | app/page.js:41-57 | a page replaces the list and the pagination and clears the error; any failure sets the error, empties the list and keeps the pagination |
| HomePage.EndpointErrorShownAsIs | app/page.js:43-56 | an error reply of the history endpoint is shown as sent |
| HomePage.NotOkError | app/page.js:98-108 | a non-ok reply is thrown as is if it carries `error`, else wrapped as "API Error <status>" with the data |
| HomePage.Received | app/page.js:94-95 | a JSON reply is read exactly as sent; the bare 500 has no JSON body, so `res.json()` throws |
| HomePage.SendErrorOf | app/page.js:113-123 | a thrown value carrying `error` is shown as is; a thrown Error becomes "Request Failed" with its message, or "{}" when the message is empty |
| HomePage.HandleSend | app/page.js:78-128 | an ok reply sets the response and refetches page 1 with the current limit; any other outcome sets the error, leaves the response null and refetches nothing |
| HomePage.RelayErrorShownAsIs | app/page.js:105-122 | a relay error reply is shown exactly as the relay sent it |
| HomePage.HandlePageChange | app/page.js:130-134 | never requests a page below 1, keeps a page ≥ 1 as given, and asks with the current limit (or 10 when it is 0) |
| HomePage.ReplayHeaders | app/page.js:138-150 | one row per entry with the value as text, or exactly one blank row when there are none |
| HomePage.ReplayBody | app/page.js:155-158 | an object body is pretty-printed JSON, a falsy body is "", anything else is `String(body)` |
| HomePage.Replay | app/page.js:152-160 | the url is copied, the method upper-cased, and the body and header rows are the replay conversions |
| HomePage.HandleReplay | app/page.js:136-163 | only the form values change; the form then starts from the entry's URL when it is truthy, its upper-cased method when it is non-empty, and its replayed header rows |
| HomePage.HeaderPropsOfEntries | app/page.js:143-145 | rows built from a header object with distinct, non-empty keys and string values rebuild that object |
| HomePage.ReplayedHeaderMap | app/page.js:138-150 | the replayed rows of such an object, blank row included, give back the same header map |
| Pipeline.ReplayReproducesHeaderMap | app/page.js:143-145 | replaying an entry and submitting sends exactly its header object |
| Pipeline.MethodsAreUpperCase | app/components/RequestForm.jsx:5-13 | every selectable method is non-empty and has no lower-case letter |
| Pipeline.SendThenReplay | app/page.js:152-160 | after a send, replaying any record the relay wrote restores the URL, the method and the submitted header map |
| Pipeline.SendThenReplayBody | app/page.js:155-158 | the relay forwards the body the form submitted and stores its serialised form; replaying a plain-text body restores the typed text, and a GET or HEAD entry replays with an empty body |
| Pipeline.RelayRepliesReachPage | app/page.js:94-95 | every relay reply other than "External API Error" reaches the page as built |
| Pipeline.RefusedStatusShowsRequestFailed | app/page.js:113-123 | a remote status outside 100..599 shows as "Request Failed" with the parse error, sets no response and refetches nothing |
| Pipeline.MountFetchAccepted | app/page.js:63-76 | the fetch on mount, from the initial pagination {1, 10, 0, 1}, asks for page 1 of 10 and the endpoint accepts it |
| Pipeline.PageChangeAccepted | app/page.js:130-134 | with an accepted limit, every page change is accepted as page max(1, newPage) |
| Pipeline.RefetchAfterSendAccepted | app/page.js:110-112 | the fetch after a successful send asks for page 1 with the current limit, and the endpoint accepts it |
| Pipeline.NewestWriteLeadsFirstPage | app/api/history/route.js:70-78 | a record saved no earlier than every stored row is the first item of page 1, with its new id; when it ties with a stored row this rests on the modelled tie order |

## Findings

| source | as written | input that shows it | evidently intended | confidence | as-written member | corrected member |
|---|---|---|---|---|---|---|
| lib/db.js:18 | `!newOrmInstance.isConnected()` negates an un-awaited promise, so it is always false and `connect()` is never called | `MikroORM.init` succeeds but leaves the instance disconnected, and the schema update succeeds: the disconnected instance is returned as ready, with no connect attempt | await the check, connecting when not connected, so a ready instance is connected | high, not executed | Db.UnawaitedCheckSkipsConnect | Db.InitializeOrmAwaited |

## Left out

- The outbound HTTP call itself is not modelled. axios appears only as a classification of
  what happened on the wire: answered with a status, sent without an answer, or not sent.
- Request and response framing is not modelled: `NextResponse.json`, `request.json()` (it
  becomes a parsed value or a failure), `fetch` and `res.json()` in the page, and every
  `console.*` call. The page's `res.ok` is taken to be a status of 200..299.
- JSON text is not modelled. `JSON.stringify`, the pretty form and `JSON.parse` are
  uninterpreted; the model never inspects JSON syntax.
- The ORM and SQLite are out of scope: MikroORM internals, the schema generator and its
  configuration. The table is a sequence of records, and each save succeeds or fails
  as an input says.
- The url column's 2048-character limit is recorded in the schema constant but is not
  enforced on insert. SQLite does not enforce VARCHAR lengths either.
- Only the sequential behaviour of the pending initialisation promise in `lib/db.js` is
  modelled. Concurrent callers awaiting the same promise are not. A pending promise is
  always a settled success, because a failure clears it before anyone can observe it.
- Numbers are unbounded integers, whereas JavaScript numbers are doubles. Fractions, NaN as a
  value, infinities and `-0` are not modelled; NaN appears only as the absent result of
  `Number` or `parseInt`. Neither is the rounding of `parseInt` and `Number` above 2^53
  (`parseInt("9007199254740993")` is 9007199254740992), nor the exponent form `String(n)`
  takes from 1e21 on ("1e+21", which `parseInt` reads back as 1). The round trips
  `JsText.ParseIntRoundTrip` and `JsValue.StringToNumberRoundTrip` hold only for the
  modelled integers; the page and limit numbers the program actually exchanges are small.
- JsText.ParseIntRoundTrip: stated for unbounded integers; not for doubles above 2^53 or
  from 1e21 on, where the program rounds or switches to exponent notation.
- JsValue.StringToNumberRoundTrip: stated for unbounded integers, with the same limits as
  the line above.
- `Number(s)` accepts blank text and optionally signed decimal digits. Hex, exponent and
  fraction forms are not modelled.
- Case mapping covers ASCII letters only.
- `Object.entries` lists properties in insertion order. The engine's rule that puts
  integer-like keys first is not modelled, and neither is the special `__proto__` key.
- Wall-clock time is a `nat` timestamp. Both records of one relay call carry the same
  timestamp.
- Rows with equal `createdAt` are ordered with the later-inserted row first. The source
  leaves this order to the database. When timestamps tie, the conclusions of
  `HistoryStore.SortChronological`, `HistoryRoute.ChronologicalFirstPage`,
  `HistoryRoute.NewestFirstScenario` and `Pipeline.NewestWriteLeadsFirstPage` rest on this
  modelled order, not on a guarantee of `ORDER BY createdAt DESC`.
- HistoryList.Label: statuses other than numbers and strings are shown with `String(v)`,
  whereas React would render booleans as nothing and refuse objects. The relay never
  stores either.
- HomePage.HandleSend: a relay reply body of `null` would make `data.error` throw a
  TypeError. The relay never answers with `null`, so this case is not modelled.
- The page's loading flags and `window.scrollTo` are not modelled. Neither are rendering,
  CSS classes or React's re-keying of the form (`key={JSON.stringify(...)}`).
- HomePage.Replay: the form is re-mounted only when the new values serialise differently
  from the current ones. Replaying the same entry twice, or an entry equal to the current
  values, keeps the mounted form and its unsent edits. The model states the values a
  replay sets, not when React re-mounts.
- RequestForm.SetHeaderField: the handler writes into the row object in place. After a
  replay those row objects are shared with the page's form values, so a header edit also
  changes them, and the next page render can re-key and re-mount the form, discarding
  unsent URL and body edits. The model treats rows as values and does not state this.
- SendRequestRoute.CatchReply: states the reply the catch block builds, not what reaches
  the caller; `SendRequestRoute.Deliver` covers delivery. The body of the framework's bare
  500 is not modelled, only that it is not the relay's JSON.
- Query strings are read without percent-decoding, `+` as a space or fragments. The
  numerals the page writes contain none of these.
- Out of scope as presentation, browser APIs or static configuration:
  - `ClientOnlyFormattedDate` (locale-dependent date formatting);
  - `ResponseDisplay`, whose badge rule is the same as `HistoryList.StatusBucket`;
  - `ThemeProvider` and `ThemeToggleButton` (localStorage and matchMedia);
  - `app/layout.js`, `tailwind.config.js` and `lib/mikro-orm.config.js`.

=== FILE: common.dfy ===
/** Failure-carrying wrappers shared by every module of the model. */
module Common {

  /** A value that may be missing (a JavaScript `undefined`/`null` slot, or an absent query parameter). */
  datatype Option<+T> = None | Some(value: T)

  /** The outcome of an operation that either yields a value or throws an error with a message. */
  datatype Result<+T> = Ok(value: T) | Err(message: string)

  function Min(a: int, b: int): int { if a <= b then a else b }

  function Max(a: int, b: int): int { if a >= b then a else b }
}

=== FILE: db.dfy ===
/**
 * Acquisition of the ORM and of per-request EntityManagers (`getORM`, `getEM`), seen
 * sequentially: every initialisation promise has settled before the next call looks at it.
 */
module Db {
  import opened Common
  import opened JsText

  /** An ORM instance; `generation` numbers the initialisation that created it. */
  datatype Orm = Orm(generation: nat, connected: bool)

  /** An EntityManager forked from an ORM instance for one request. */
  datatype EntityManager = EntityManager(orm: Orm)

  /**
   * The module-level variables: `orm`, and whether `ormInitializationPromise` is set.
   * `attempts` counts the initialisations started so far (it is not in the source; it makes
   * "starts an initialisation" observable).
   */
  datatype DbState = DbState(orm: Option<Orm>, pending: bool, attempts: nat)

  const InitialState: DbState := DbState(None, false, 0)

  /**
   * A promise that is still set has resolved (a rejected one clears itself), and `orm`
   * holds the instance it resolved to.
   */
  predicate Inv(st: DbState) {
    st.pending ==> st.orm.Some?
  }

  /** Whether one asynchronous step of the environment succeeds. */
  datatype Step = Succeeds | Fails(message: string)

  /**
   * What the environment does during one initialisation: `MikroORM.init`, whether the new
   * instance is in fact connected, what an explicit `connect()` would do, and the schema update.
   */
  datatype InitScript = InitScript(create: Step, connectedAfterCreate: bool, connect: Step, updateSchema: Step)

  /** The calls an initialisation makes on the ORM, in order. */
  datatype Action = CreateOrm | Connect | UpdateSchema(safe: bool, dropTables: bool)

  datatype InitRun = InitRun(result: Result<Orm>, actions: seq<Action>)

  /**
   * `initializeOrm()` as written: create, then update the schema without dropping tables.
   * The guard `!newOrmInstance.isConnected()` negates a promise, which is always truthy, so
   * `connect()` is never called and the instance is returned as `MikroORM.init` left it.
   */
  function InitializeOrm(script: InitScript, generation: nat): (run: InitRun)
    ensures Connect !in run.actions
    ensures |run.actions| > 0 && run.actions[0] == CreateOrm
    ensures run.result.Ok? <==> script.create.Succeeds? && script.updateSchema.Succeeds?
    ensures run.result.Ok? ==> run.result.value == Orm(generation, script.connectedAfterCreate)
    ensures script.create.Succeeds? ==> run.actions == [CreateOrm, UpdateSchema(true, false)]
    ensures script.create.Fails? ==> run == InitRun(Err(script.create.message), [CreateOrm])
    ensures script.create.Succeeds? && script.updateSchema.Fails? ==> run.result == Err(script.updateSchema.message)
  {
    match script.create
    case Fails(m) => InitRun(Err(m), [CreateOrm])
    case Succeeds =>
      var actions := [CreateOrm, UpdateSchema(true, false)];
      match script.updateSchema
      case Fails(m) => InitRun(Err(m), actions)
      case Succeeds => InitRun(Ok(Orm(generation, script.connectedAfterCreate)), actions)
  }

  /**
   * `initializeOrm()` with the connection check awaited, as its comment intends: connect
   * when the new instance is not connected, so a successful run always yields a connected
   * instance.
   */
  function InitializeOrmAwaited(script: InitScript, generation: nat): (run: InitRun)
    ensures |run.actions| > 0 && run.actions[0] == CreateOrm
    ensures run.result.Ok? ==> run.result.value == Orm(generation, true)
    ensures run.result.Ok? ==> run.actions[|run.actions| - 1] == UpdateSchema(true, false)
    ensures run.result.Ok? ==> (Connect in run.actions <==> !script.connectedAfterCreate)
    ensures run.result.Ok? <==>
              && script.create.Succeeds?
              && (script.connectedAfterCreate || script.connect.Succeeds?)
              && script.updateSchema.Succeeds?
    ensures script.create.Fails? ==> run.result == Err(script.create.message)
    ensures script.create.Succeeds? && !script.connectedAfterCreate && script.connect.Fails? ==>
              run == InitRun(Err(script.connect.message), [CreateOrm, Connect])
  {
    match script.create
    case Fails(m) => InitRun(Err(m), [CreateOrm])
    case Succeeds =>
      var connecting := if script.connectedAfterCreate then [] else [Connect];
      if !script.connectedAfterCreate && script.connect.Fails? then
        InitRun(Err(script.connect.message), [CreateOrm, Connect])
      else
        var actions := [CreateOrm] + connecting + [UpdateSchema(true, false)];
        match script.updateSchema
        case Fails(m) => InitRun(Err(m), actions)
        case Succeeds => InitRun(Ok(Orm(generation, true)), actions)
  }

  /**
   * As written, `initializeOrm` hands back an instance that `MikroORM.init` left
   * disconnected, without trying to connect and without an error; the awaited check
   * connects it, or fails with the connection error.
   */
  lemma UnawaitedCheckSkipsConnect(script: InitScript, generation: nat)
    requires script.create.Succeeds? && !script.connectedAfterCreate && script.updateSchema.Succeeds?
    ensures InitializeOrm(script, generation).result == Ok(Orm(generation, false))
    ensures Connect !in InitializeOrm(script, generation).actions
    ensures Connect in InitializeOrmAwaited(script, generation).actions
    ensures InitializeOrmAwaited(script, generation).result ==
              (if script.connect.Succeeds? then Ok(Orm(generation, true)) else Err(script.connect.message))
  {
  }

  /** The state after a call to `getORM`, what it returned or threw, and the ORM calls it made. */
  datatype OrmCall = OrmCall(state: DbState, result: Result<Orm>, actions: seq<Action>)

  /**
   * `getORM()` as written: `!orm.isConnected()` also negates a promise, so any instance held
   * is returned as is; without one, a new initialisation is started and awaited. (A set
   * promise always comes with an instance, so the "waiting" branch is never taken here.)
   */
  function GetOrm(st: DbState, script: InitScript): (call: OrmCall)
    requires Inv(st)
    ensures Inv(call.state)
    ensures st.orm.Some? ==> call == OrmCall(st, Ok(st.orm.value), [])
    ensures st.orm.None? ==>
              && call.result == InitializeOrm(script, st.attempts).result
              && call.actions == InitializeOrm(script, st.attempts).actions
    ensures call.state.attempts == st.attempts + (if call.actions == [] then 0 else 1)
    ensures call.actions != [] <==> st.orm.None?
    ensures call.actions != [] && call.result.Ok? ==> call.state.pending
    ensures call.result.Err? ==> call.state == DbState(st.orm, false, st.attempts + 1)
    ensures call.result.Ok? ==> call.state.orm == Some(call.result.value)
  {
    if st.orm.Some? then OrmCall(st, Ok(st.orm.value), [])
    else
      var run := InitializeOrm(script, st.attempts);
      match run.result
      case Ok(o) => OrmCall(DbState(Some(o), true, st.attempts + 1), Ok(o), run.actions)
      case Err(m) => OrmCall(DbState(st.orm, false, st.attempts + 1), Err(m), run.actions)
  }

  /**
   * `getORM()` with both connection checks awaited: a connected instance is returned as is;
   * otherwise a settled promise is reused, or a new (awaited) initialisation is started.
   */
  function GetOrmAwaited(st: DbState, script: InitScript): (call: OrmCall)
    requires Inv(st)
    ensures Inv(call.state)
    ensures st.orm.Some? && st.orm.value.connected ==> call == OrmCall(st, Ok(st.orm.value), [])
    ensures st.pending ==> call.state == st && call.result == Ok(st.orm.value) && call.actions == []
    ensures call.state.attempts == st.attempts + (if call.actions == [] then 0 else 1)
    ensures call.actions != [] <==> !st.pending && !(st.orm.Some? && st.orm.value.connected)
    ensures call.actions != [] ==>
              && call.result == InitializeOrmAwaited(script, st.attempts).result
              && call.actions == InitializeOrmAwaited(script, st.attempts).actions
    ensures call.actions != [] && call.result.Ok? ==> call.state.pending
    ensures call.result.Err? ==> call.state == DbState(st.orm, false, st.attempts + 1)
    ensures call.result.Ok? ==> call.state.orm == Some(call.result.value)
  {
    if st.orm.Some? && st.orm.value.connected then OrmCall(st, Ok(st.orm.value), [])
    else if st.pending then OrmCall(st, Ok(st.orm.value), [])
    else
      var run := InitializeOrmAwaited(script, st.attempts);
      match run.result
      case Ok(o) => OrmCall(DbState(Some(o), true, st.attempts + 1), Ok(o), run.actions)
      case Err(m) => OrmCall(DbState(st.orm, false, st.attempts + 1), Err(m), run.actions)
  }

  /** The database connection drops behind the ORM's back. */
  function Disconnect(st: DbState): (st': DbState)
    ensures Inv(st) ==> Inv(st')
    ensures st'.orm.Some? <==> st.orm.Some?
    ensures st'.orm.Some? ==> !st'.orm.value.connected
    ensures st.orm.Some? ==> st'.orm == Some(st.orm.value.(connected := false))
    ensures st'.pending == st.pending && st'.attempts == st.attempts
  {
    if st.orm.Some? then st.(orm := Some(st.orm.value.(connected := false))) else st
  }

  const DatabaseService: string := "Database service"

  const InitializingMessage: string :=
    DatabaseService + " is currently initializing or unavailable. Please try again shortly."

  const FallbackMessage: string :=
    DatabaseService + " unavailable due to EntityManager failure."

  /** The message `getEM` rethrows in place of the error it caught. */
  function EmErrorMessage(caught: string): (m: string)
    ensures m == InitializingMessage <==>
              Contains(caught, "ORM instance is not available") || Contains(caught, "initialization")
    ensures m == InitializingMessage || m == FallbackMessage
  {
    if Contains(caught, "ORM instance is not available") || Contains(caught, "initialization")
    then InitializingMessage
    else FallbackMessage
  }

  /** The state after a call to `getEM`, and the EntityManager or the error it threw. */
  datatype EmCall = EmCall(state: DbState, result: Result<EntityManager>)

  /**
   * `getEM()`, given what its call of `getORM()` did: fork an EntityManager from the ORM;
   * any error on the way is replaced by one of two database-service messages.
   */
  function GetEm(orm: OrmCall, fork: Step): (call: EmCall)
    ensures call.state == orm.state
    ensures call.result.Ok? <==> orm.result.Ok? && fork.Succeeds?
    ensures call.result.Ok? ==> call.result.value == EntityManager(orm.result.value)
    ensures orm.result.Err? ==> call.result == Err(EmErrorMessage(orm.result.message))
    ensures orm.result.Ok? && fork.Fails? ==> call.result == Err(EmErrorMessage(fork.message))
    ensures call.result.Err? ==> call.result.message == InitializingMessage || call.result.message == FallbackMessage
  {
    match orm.result
    case Err(m) => EmCall(orm.state, Err(EmErrorMessage(m)))
    case Ok(o) =>
      match fork
      case Fails(m) => EmCall(orm.state, Err(EmErrorMessage(m)))
      case Succeeds => EmCall(orm.state, Ok(EntityManager(o)))
  }

  lemma {:induction false} LowerPrefix(s: string, prefix: string)
    requires StartsWith(s, prefix)
    ensures StartsWith(ToLower(s), ToLower(prefix))
  {
    assert ToLower(s)[..|prefix|] == ToLower(prefix);
  }

  /** Both messages `getEM` can throw mention the database service, in any letter case. */
  lemma EmErrorMentionsDatabaseService(caught: string)
    ensures Contains(EmErrorMessage(caught), DatabaseService)
    ensures Contains(ToLower(EmErrorMessage(caught)), "database service")
  {
    var m := EmErrorMessage(caught);
    assert m[..|DatabaseService|] == DatabaseService;
    LowerPrefix(m, DatabaseService);
    assert ToLower("Database service") == "database service";
  }

  /** Once an initialisation has failed, the next `getORM` starts a fresh one. */
  lemma RetryAfterFailure(st: DbState, first: InitScript, second: InitScript)
    requires Inv(st)
    requires GetOrm(st, first).result.Err?
    ensures GetOrm(GetOrm(st, first).state, second).actions != []
    ensures GetOrm(GetOrm(st, first).state, second).state.attempts == st.attempts + 2
  {
  }

  /**
   * Once an instance is held, `getORM` as written never initialises again: if the
   * connection later drops, the disconnected instance is handed back.
   */
  lemma StaleInstanceAfterDisconnect(st: DbState, first: InitScript, second: InitScript)
    requires Inv(st)
    requires GetOrm(st, first).result.Ok?
    ensures var later := GetOrm(Disconnect(GetOrm(st, first).state), second);
            && later.actions == []
            && later.result.Ok?
            && !later.result.value.connected
  {
  }

  /**
   * Awaiting the checks does not cure this: a successful initialisation leaves its promise
   * set, so after a disconnect `getORM` awaits the old promise and returns the same
   * disconnected instance.
   */
  lemma StaleEvenWhenAwaited(st: DbState, first: InitScript, second: InitScript)
    requires Inv(st)
    requires GetOrmAwaited(st, first).actions != [] && GetOrmAwaited(st, first).result.Ok?
    ensures var later := GetOrmAwaited(Disconnect(GetOrmAwaited(st, first).state), second);
            && later.actions == []
            && later.result.Ok?
            && !later.result.value.connected
  {
  }
}

=== FILE: history_list.dfy ===
/**
 * The history list: which panel it shows, the status badge of each entry, and the
 * Previous/Next pagination controls with the pages they request.
 */
module HistoryList {
  import opened Common
  import opened JsText
  import opened JsValue
  import opened RequestHistoryEntity
  import opened HistoryStore
  import opened HistoryRoute

  // ---------------------------------------------------------------------------
  // Status badge
  // ---------------------------------------------------------------------------

  /** The badge colour: green, red, sky blue, or the yellow fallback. */
  datatype Bucket = Success | Failure | Redirect | Fallback

  /** `v >= k` for a JavaScript value and a number: false whenever `Number(v)` is NaN. */
  predicate AtLeast(v: Value, k: int) {
    ToNumber(v).Some? && ToNumber(v).value >= k
  }

  /** `v < k`, likewise false for NaN. */
  predicate Below(v: Value, k: int) {
    ToNumber(v).Some? && ToNumber(v).value < k
  }

  /** The badge colour picked by the chain of comparisons on `responseStatus`. */
  function StatusBucket(status: Value): (b: Bucket)
    ensures b == Success <==> ToNumber(status).Some? && 200 <= ToNumber(status).value < 300
    ensures b == Failure <==> ToNumber(status).Some? && ToNumber(status).value >= 400
    ensures b == Redirect <==> ToNumber(status).Some? && 300 <= ToNumber(status).value < 400
    ensures b == Fallback <==> ToNumber(status).None? || ToNumber(status).value < 200
  {
    if AtLeast(status, 200) && Below(status, 300) then Success
    else if AtLeast(status, 400) then Failure
    else if AtLeast(status, 300) && Below(status, 400) then Redirect
    else Fallback
  }

  /** The badge text: the upper-cased method, a space, then the status or "N/A" when it is falsy. */
  function Label(item: Record): (text: string)
    ensures StartsWith(text, ToUpper(item.httpMethod) + " ")
    ensures !Truthy(item.responseStatus) ==> text == ToUpper(item.httpMethod) + " N/A"
    ensures Truthy(item.responseStatus) ==> text == ToUpper(item.httpMethod) + " " + ToStr(item.responseStatus)
  {
    var shown := if Truthy(item.responseStatus) then ToStr(item.responseStatus) else "N/A";
    var prefix := ToUpper(item.httpMethod) + " ";
    assert (prefix + shown)[..|prefix|] == prefix;
    prefix + shown
  }

  /**
   * The relay's failure sentinel `0` (and any 1xx status) gets the fallback badge, and
   * the sentinel is shown as "N/A".
   */
  lemma SentinelBadge(item: Record)
    requires item.responseStatus == Num(0)
    ensures StatusBucket(item.responseStatus) == Fallback
    ensures Label(item) == ToUpper(item.httpMethod) + " N/A"
  {
  }

  /** A numeric status has exactly one bucket, decided by its hundreds range. */
  lemma BucketOfNumber(n: int)
    ensures StatusBucket(Num(n)) == Success <==> 200 <= n < 300
    ensures StatusBucket(Num(n)) == Redirect <==> 300 <= n < 400
    ensures StatusBucket(Num(n)) == Failure <==> 400 <= n
    ensures StatusBucket(Num(n)) == Fallback <==> n < 200
  {
  }

  // ---------------------------------------------------------------------------
  // Panels
  // ---------------------------------------------------------------------------

  /** What the component renders, checked in this order. */
  datatype Panel = LoadingPanel | ErrorPanel(text: string) | EmptyPanel | ListPanel(items: seq<Record>)

  /**
   * The text of the error panel: the pretty-printed `details` (or the whole error) for an
   * object, `String(error)` otherwise.
   */
  function ErrorText(error: Value, codec: JsonCodec): string {
    if IsObjectType(error) && !error.Null? then codec.prettyPrint(Or(Field(error, "details"), error))
    else ToStr(error)
  }

  function ShowPanel(isLoading: bool, error: Value, history: seq<Record>, codec: JsonCodec): (p: Panel)
    ensures isLoading ==> p == LoadingPanel
    ensures !isLoading && Truthy(error) ==> p == ErrorPanel(ErrorText(error, codec))
    ensures p.EmptyPanel? <==> !isLoading && !Truthy(error) && |history| == 0
    ensures p.ListPanel? ==> p.items == history && |history| > 0
    ensures !isLoading && !Truthy(error) && |history| > 0 ==> p == ListPanel(history)
  {
    if isLoading then LoadingPanel
    else if Truthy(error) then ErrorPanel(ErrorText(error, codec))
    else if |history| == 0 then EmptyPanel
    else ListPanel(history)
  }

  // ---------------------------------------------------------------------------
  // Pagination controls
  // ---------------------------------------------------------------------------

  /** The controls are rendered only when there is more than one page. */
  predicate ShowsControls(p: Pagination) {
    p.totalPages > 1
  }

  predicate PreviousDisabled(p: Pagination) {
    p.page <= 1
  }

  predicate NextDisabled(p: Pagination) {
    p.page >= p.totalPages
  }

  /** The page "Previous" asks for: the one just before the current page. */
  function PreviousTarget(p: Pagination): (target: int)
    ensures target + 1 == p.page
    ensures !PreviousDisabled(p) ==> target >= 1
  {
    p.page - 1
  }

  /** The page "Next" asks for: the one just after the current page. */
  function NextTarget(p: Pagination): (target: int)
    ensures target == p.page + 1
    ensures !NextDisabled(p) ==> target <= p.totalPages
  {
    p.page + 1
  }

  /**
   * On a page served by the history endpoint, an enabled "Next" leads to a page that holds
   * rows, and an enabled "Previous" from a page within range leads to a full page.
   */
  lemma {:induction false} ControlsLeadToRows(page: int, limit: int, rows: seq<Record>)
    requires page >= 1 && 1 <= limit <= MaxLimit
    ensures var p := ServePage(page, limit, rows).pagination;
            && (!NextDisabled(p) ==> |ServePage(NextTarget(p), limit, rows).items| > 0)
            && (!PreviousDisabled(p) && p.page <= p.totalPages ==>
                  |ServePage(PreviousTarget(p), limit, rows).items| == limit)
  {
    var p := ServePage(page, limit, rows).pagination;
    assert p == Pagination(page, limit, |rows|, CeilDiv(|rows|, limit));
    if !NextDisabled(p) {
      NextLeadsToRows(page, limit, |rows|, p.totalPages);
    }
    if !PreviousDisabled(p) && p.page <= p.totalPages {
      PreviousLeadsToFullPage(page, limit, |rows|, p.totalPages);
    }
  }

  /** Below the last page, the next page starts inside the table. */
  lemma NextLeadsToRows(page: int, limit: int, total: nat, totalPages: nat)
    requires page >= 1 && 1 <= limit <= MaxLimit
    requires totalPages == CeilDiv(total, limit) && page < totalPages
    ensures Min(limit, Max(0, total - (page + 1 - 1) * limit)) > 0
  {
    // page * limit <= (totalPages - 1) * limit < total
    assert (totalPages - 1) * limit < total;
    MultiplyMonotone(page, totalPages - 1, limit);
  }

  /** From a page within range, the previous page is full. */
  lemma PreviousLeadsToFullPage(page: int, limit: int, total: nat, totalPages: nat)
    requires page > 1 && 1 <= limit <= MaxLimit
    requires totalPages == CeilDiv(total, limit) && page <= totalPages
    ensures Min(limit, Max(0, total - (page - 1 - 1) * limit)) == limit
  {
    // (page - 1) * limit <= (totalPages - 1) * limit < total
    assert (totalPages - 1) * limit < total;
    MultiplyMonotone(page - 1, totalPages - 1, limit);
    assert (page - 2) * limit + limit == (page - 1) * limit;
  }

  /** On a served page, the controls appear exactly when the table holds more than one page of rows. */
  lemma ControlsShownIffSeveralPages(page: int, limit: int, rows: seq<Record>)
    requires page >= 1 && 1 <= limit <= MaxLimit
    ensures ShowsControls(ServePage(page, limit, rows).pagination) <==> |rows| > limit
  {
    var q := CeilDiv(|rows|, limit);
    assert ServePage(page, limit, rows).pagination.totalPages == q;
    if q > 1 {
      MultiplyMonotone(1, q - 1, limit);
    }
    if |rows| > limit {
      assert q * limit >= |rows|;
      if q <= 1 {
        MultiplyMonotone(q, 1, limit);
      }
    }
  }

  lemma MultiplyMonotone(a: int, b: int, k: nat)
    requires a <= b
    ensures a * k <= b * k
  {
  }
}

=== FILE: history_route.dfy ===
/**
 * The history endpoint `GET /api/history?page=&limit=`: validate the pagination parameters
 * and answer one page of the table, newest first, with the pagination summary.
 */
module HistoryRoute {
  import opened Common
  import opened JsText
  import opened RequestHistoryEntity
  import opened HistoryStore
  import opened Db

  /** The outcome of the `findAndCount` query; `name` is the error's `name` property. */
  datatype QueryOutcome = QueryOk | QueryFailed(name: string, message: string)

  datatype Pagination = Pagination(page: int, limit: int, totalItems: int, totalPages: int)

  /** A reply of the endpoint: a 200 page, or an error status with its JSON fields. */
  datatype HistoryReply =
    | HistoryPage(items: seq<Record>, pagination: Pagination)
    | HistoryError(status: int, error: string, details: Option<string>)

  const MaxLimit: int := 100

  /** `searchParams.get(name) || fallback`: an absent or empty parameter takes the default. */
  function ParamOr(param: Option<string>, fallback: string): (s: string)
    ensures param.Some? && param.value != "" ==> s == param.value
    ensures param.None? || param.value == "" ==> s == fallback
  {
    if param.Some? && param.value != "" then param.value else fallback
  }

  /** `Math.ceil(a / b)` for a count and a positive divisor. */
  function CeilDiv(a: nat, b: nat): (q: nat)
    requires b > 0
    ensures q * b >= a
    ensures q > 0 ==> (q - 1) * b < a
  {
    (a + b - 1) / b
  }

  predicate ValidPage(page: Option<int>) {
    page.Some? && page.value >= 1
  }

  predicate ValidLimit(limit: Option<int>) {
    limit.Some? && 1 <= limit.value <= MaxLimit
  }

  /**
   * The reply when `getEM` throws: 503 when the message mentions the database service or a
   * missing ORM instance (in any letter case), 500 otherwise.
   */
  function StoreErrorReply(message: string): (reply: HistoryReply)
    ensures reply.HistoryError?
    ensures reply.status == 503 <==>
              Contains(ToLower(message), "database service") || Contains(ToLower(message), "orm instance is not available")
    ensures reply.status != 503 ==> reply.status == 500
  {
    var lower := ToLower(message);
    if Contains(lower, "database service") || Contains(lower, "orm instance is not available") then
      HistoryError(503, "Database service unavailable",
                   Some("The database is currently initializing or not reachable. Please try again shortly."))
    else
      HistoryError(500, "Internal Server Error", Some("Could not connect to database service."))
  }

  /** The reply when the query throws: a MikroORM error is a "Database query error". */
  function QueryErrorReply(name: string, message: string): (reply: HistoryReply)
    ensures reply.HistoryError? && reply.status == 500
    ensures reply.error == "Database query error" <==> Contains(name, "MikroORM")
    ensures reply.error != "Database query error" ==> reply.error == "Failed to fetch history"
  {
    if name != "" && Contains(name, "MikroORM") then
      HistoryError(500, "Database query error", Some(message))
    else
      HistoryError(500, "Failed to fetch history", Some("An unexpected error occurred."))
  }

  /** The validated pagination parameters, or the 400 error message. */
  datatype PageRequest = PageRequest(page: int, limit: int) | BadRequest(error: string)

  /**
   * Parse `page` and `limit` with `parseInt(·, 10)` after defaulting them to "1" and "10",
   * then check the page before the limit.
   */
  function ParsePageRequest(pageParam: Option<string>, limitParam: Option<string>): (r: PageRequest)
    ensures !ValidPage(ParseInt(ParamOr(pageParam, "1"))) ==> r == BadRequest("Invalid page number")
    ensures ValidPage(ParseInt(ParamOr(pageParam, "1"))) && !ValidLimit(ParseInt(ParamOr(limitParam, "10"))) ==>
              r == BadRequest("Invalid limit value (must be 1-100)")
    ensures r.PageRequest? ==>
              && Some(r.page) == ParseInt(ParamOr(pageParam, "1"))
              && Some(r.limit) == ParseInt(ParamOr(limitParam, "10"))
              && r.page >= 1 && 1 <= r.limit <= MaxLimit
  {
    var page := ParseInt(ParamOr(pageParam, "1"));
    var limit := ParseInt(ParamOr(limitParam, "10"));
    if !ValidPage(page) then BadRequest("Invalid page number")
    else if !ValidLimit(limit) then BadRequest("Invalid limit value (must be 1-100)")
    else PageRequest(page.value, limit.value)
  }

  /** The page answered for validated parameters: `offset = (page - 1) * limit`. */
  function ServePage(page: int, limit: int, rows: seq<Record>): (reply: HistoryReply)
    requires page >= 1 && 1 <= limit <= MaxLimit
    ensures reply.HistoryPage?
    ensures reply.pagination == Pagination(page, limit, |rows|, CeilDiv(|rows|, limit))
    ensures reply.items == Window(SortNewestFirst(rows), (page - 1) * limit, limit)
    ensures |reply.items| == Min(limit, Max(0, |rows| - (page - 1) * limit))
    ensures NewestFirst(reply.items)
    ensures forall x :: x in reply.items ==> x in rows
  {
    var offset: nat := (page - 1) * limit;
    var found := FindAndCount(rows, limit, offset);
    HistoryPage(found.items, Pagination(page, limit, found.total, CeilDiv(found.total, limit)))
  }

  /**
   * `GET(request)`. `em` is the result of `getEM()`, `pageParam` and `limitParam` the raw
   * query parameters, `query` whether `findAndCount` succeeds, and `rows` the table.
   */
  function Get(em: Result<EntityManager>, pageParam: Option<string>, limitParam: Option<string>,
               query: QueryOutcome, rows: seq<Record>): (reply: HistoryReply)
    ensures em.Err? ==> reply == StoreErrorReply(em.message)
    ensures em.Ok? && ParsePageRequest(pageParam, limitParam).BadRequest? ==>
              reply == HistoryError(400, ParsePageRequest(pageParam, limitParam).error, None)
    ensures em.Ok? && ParsePageRequest(pageParam, limitParam).PageRequest? && query.QueryFailed? ==>
              reply == QueryErrorReply(query.name, query.message)
    ensures reply.HistoryPage? <==>
              em.Ok? && ParsePageRequest(pageParam, limitParam).PageRequest? && query.QueryOk?
    ensures reply.HistoryPage? ==>
              var r := ParsePageRequest(pageParam, limitParam);
              reply == ServePage(r.page, r.limit, rows)
  {
    match em
    case Err(m) => StoreErrorReply(m)
    case Ok(_) =>
      match ParsePageRequest(pageParam, limitParam)
      case BadRequest(error) => HistoryError(400, error, None)
      case PageRequest(page, limit) =>
        match query
        case QueryFailed(name, message) => QueryErrorReply(name, message)
        case QueryOk => ServePage(page, limit, rows)
  }

  // ---------------------------------------------------------------------------
  // Properties of the endpoint
  // ---------------------------------------------------------------------------

  lemma NumeralOne()
    ensures IntToString(1) == "1"
  {
  }

  lemma NumeralTen()
    ensures IntToString(10) == "10"
  {
    NumeralOne();
    assert NatToString(10) == NatToString(1) + [DigitChar(0)];
  }

  /** An absent or empty `page` is page 1, an absent or empty `limit` is 10. */
  lemma Defaults(param: Option<string>)
    requires param.None? || param.value == ""
    ensures ParseInt(ParamOr(param, "1")) == Some(1)
    ensures ParseInt(ParamOr(param, "10")) == Some(10)
  {
    NumeralOne();
    NumeralTen();
    ParseIntRoundTrip(1);
    ParseIntRoundTrip(10);
  }

  /** Any numeral from 1 to 100 is accepted as a limit, and any numeral from 1 up as a page. */
  lemma NumeralsAccepted(page: int, limit: int)
    requires page >= 1 && 1 <= limit <= MaxLimit
    ensures ParsePageRequest(Some(IntToString(page)), Some(IntToString(limit))) == PageRequest(page, limit)
  {
    ParseIntRoundTrip(page);
    ParseIntRoundTrip(limit);
  }

  /** `totalPages` is zero exactly for an empty table, and otherwise the last page is not empty. */
  lemma TotalPagesBounds(page: int, limit: int, rows: seq<Record>)
    requires page >= 1 && 1 <= limit <= MaxLimit
    ensures var p := ServePage(page, limit, rows).pagination;
            && p.page == page && p.limit == limit
            && (p.totalPages == 0 <==> |rows| == 0)
            && (p.totalPages > 0 ==> (p.totalPages - 1) * p.limit < |rows| <= p.totalPages * p.limit)
  {
  }

  /** Every error `getEM` throws is answered 503, never by the 500 branch. */
  lemma EmFailureIsUnavailable(orm: OrmCall, fork: Step,
                               pageParam: Option<string>, limitParam: Option<string>,
                               query: QueryOutcome, rows: seq<Record>)
    requires GetEm(orm, fork).result.Err?
    ensures Get(GetEm(orm, fork).result, pageParam, limitParam, query, rows).status == 503
  {
    if orm.result.Err? {
      EmErrorMentionsDatabaseService(orm.result.message);
    } else {
      EmErrorMentionsDatabaseService(fork.message);
    }
  }

  lemma FirstPageOfTen()
    ensures ParsePageRequest(Some("1"), Some("10")) == PageRequest(1, 10)
  {
    NumeralOne();
    NumeralTen();
    NumeralsAccepted(1, 10);
  }

  lemma NumeralTwenty()
    ensures IntToString(20) == "20"
  {
    assert NatToString(2) == "2";
    assert NatToString(20) == NatToString(2) + [DigitChar(0)];
  }

  lemma NumeralTwoHundred()
    ensures IntToString(200) == "200"
  {
    NumeralTwenty();
    assert NatToString(200) == NatToString(20) + [DigitChar(0)];
  }

  lemma ReverseThree(a: Record, b: Record, c: Record)
    ensures Reverse([a, b, c]) == [c, b, a]
  {
    var rev := Reverse([a, b, c]);
    assert rev[0] == c && rev[1] == b && rev[2] == a;
  }

  /** Three rows in chronological order sort into reverse order. */
  lemma SortThree(a: Record, b: Record, c: Record)
    requires a.createdAt <= b.createdAt <= c.createdAt
    ensures SortNewestFirst([a, b, c]) == [c, b, a]
  {
    assert Chronological([a, b, c]);
    SortChronological([a, b, c]);
    ReverseThree(a, b, c);
  }

  /** Rows written in chronological order fill page 1 of 10 in reverse. */
  lemma ChronologicalFirstPage(a: Record, b: Record, c: Record)
    requires a.createdAt <= b.createdAt <= c.createdAt
    ensures ServePage(1, 10, [a, b, c]) == HistoryPage([c, b, a], Pagination(1, 10, 3, 1))
  {
    var reply := ServePage(1, 10, [a, b, c]);
    SortThree(a, b, c);
    assert reply.items == Window([c, b, a], 0, 10);
    assert Window([c, b, a], 0, 10) == [c, b, a];
    assert CeilDiv(3, 10) == 1;
  }

  /** Three rows written in order A, B, C come back as C, B, A on page 1 of 10. */
  lemma NewestFirstScenario(em: EntityManager, a: Record, b: Record, c: Record)
    requires a.createdAt <= b.createdAt <= c.createdAt
    ensures Get(Ok(em), Some("1"), Some("10"), QueryOk, [a, b, c]) ==
            HistoryPage([c, b, a], Pagination(1, 10, 3, 1))
  {
    FirstPageOfTen();
    ChronologicalFirstPage(a, b, c);
  }

  /** A limit of 200 is refused. */
  lemma LimitTooLarge(em: EntityManager, query: QueryOutcome, rows: seq<Record>)
    ensures Get(Ok(em), Some("1"), Some("200"), query, rows) == HistoryError(400, "Invalid limit value (must be 1-100)", None)
  {
    assert ParseInt("1") == Some(1) by {
      Defaults(None);
    }
    assert ParseInt("200") == Some(200) by {
      NumeralTwoHundred();
      ParseIntRoundTrip(200);
    }
    assert ParsePageRequest(Some("1"), Some("200")) == BadRequest("Invalid limit value (must be 1-100)");
  }
}

=== FILE: history_store.dfy ===
/**
 * The persistent store behind the ORM, reduced to what the routes use: inserting one
 * record (which may fail) and reading a window of the table ordered newest first,
 * together with the total row count.
 */
module HistoryStore {
  import opened Common
  import opened RequestHistoryEntity

  /** The outcome of one `persistAndFlush` call. */
  datatype SaveResult = Saved | SaveFailed(message: string)

  /** The table's rows in insertion order, and the next auto-increment key. */
  datatype Store = Store(rows: seq<Record>, nextId: nat)

  /** Every stored row carries a key below `nextId`, and no two rows share a key. */
  predicate Valid(st: Store) {
    && (forall i :: 0 <= i < |st.rows| ==> st.rows[i].id.Some? && 1 <= st.rows[i].id.value < st.nextId)
    && (forall i, j :: 0 <= i < j < |st.rows| ==> st.rows[i].id != st.rows[j].id)
    && st.nextId >= 1
  }

  /** The result of the `n`-th save of a request; saves not listed succeed. */
  function SaveAt(saves: seq<SaveResult>, n: nat): SaveResult {
    if n < |saves| then saves[n] else Saved
  }

  /**
   * `persistAndFlush(r)`: a successful save appends the record under the next key;
   * a failed save leaves the table untouched.
   */
  function Persist(st: Store, r: Record, result: SaveResult): (st': Store)
    ensures result.Saved? ==> st'.rows == st.rows + [r.(id := Some(st.nextId))]
    ensures result.Saved? ==> st'.nextId == st.nextId + 1
    ensures result.SaveFailed? ==> st' == st
    ensures Valid(st) ==> Valid(st')
  {
    if result.Saved? then Store(st.rows + [r.(id := Some(st.nextId))], st.nextId + 1) else st
  }

  /** The save results after the first. */
  function LaterSaves(saves: seq<SaveResult>): (rest: seq<SaveResult>)
    ensures forall n: nat :: SaveAt(rest, n) == SaveAt(saves, n + 1)
  {
    if |saves| > 0 then saves[1..] else []
  }

  /** The writes whose saves succeed, in order: the `n`-th is kept when `SaveAt(saves, n)` is `Saved`. */
  function SavedWrites(writes: seq<Record>, saves: seq<SaveResult>): (kept: seq<Record>)
    ensures |kept| <= |writes|
    decreases |writes|
  {
    if |writes| == 0 then []
    else (if SaveAt(saves, 0).Saved? then [writes[0]] else []) + SavedWrites(writes[1..], LaterSaves(saves))
  }

  /** Records keyed consecutively from `first`. */
  function Numbered(rs: seq<Record>, first: nat): (out: seq<Record>)
    ensures |out| == |rs|
    ensures forall k :: 0 <= k < |rs| ==> out[k] == rs[k].(id := Some(first + k))
    decreases |rs|
  {
    if |rs| == 0 then [] else [rs[0].(id := Some(first))] + Numbered(rs[1..], first + 1)
  }

  /**
   * The store after the write attempts of one request, the `n`-th meeting `SaveAt(saves, n)`:
   * exactly the writes that were saved are appended, in order, under consecutive keys.
   */
  function PersistAll(st: Store, writes: seq<Record>, saves: seq<SaveResult>): (st': Store)
    ensures st'.rows == st.rows + Numbered(SavedWrites(writes, saves), st.nextId)
    ensures st'.nextId == st.nextId + |SavedWrites(writes, saves)|
    decreases |writes|
  {
    if |writes| == 0 then st
    else
      var next := Persist(st, writes[0], SaveAt(saves, 0));
      var rest := LaterSaves(saves);
      var later := SavedWrites(writes[1..], rest);
      var result := PersistAll(next, writes[1..], rest);
      if SaveAt(saves, 0).Saved? then
        assert SavedWrites(writes, saves) == [writes[0]] + later;
        assert next == Store(st.rows + [writes[0].(id := Some(st.nextId))], st.nextId + 1);
        assert ([writes[0]] + later)[1..] == later;
        result
      else
        assert SavedWrites(writes, saves) == later;
        result
  }

  /** A single write is kept exactly when its save succeeds. */
  lemma SavedOfOne(w: Record, saves: seq<SaveResult>)
    ensures SavedWrites([w], saves) == if SaveAt(saves, 0).Saved? then [w] else []
  {
    assert [w][1..] == [];
  }

  /** Of two writes whose first save fails, only the second can be kept. */
  lemma SavedOfTwoAfterFailure(a: Record, b: Record, saves: seq<SaveResult>)
    requires SaveAt(saves, 0).SaveFailed?
    ensures SavedWrites([a, b], saves) == if SaveAt(saves, 1).Saved? then [b] else []
  {
    assert [a, b][1..] == [b];
    SavedOfOne(b, LaterSaves(saves));
  }

  /** Keys stay unique and below `nextId` through the writes of a request. */
  lemma {:induction false} PersistAllKeepsValid(st: Store, writes: seq<Record>, saves: seq<SaveResult>)
    requires Valid(st)
    ensures Valid(PersistAll(st, writes, saves))
    decreases |writes|
  {
    if |writes| > 0 {
      PersistAllKeepsValid(Persist(st, writes[0], SaveAt(saves, 0)), writes[1..], LaterSaves(saves));
    }
  }

  // ---------------------------------------------------------------------------
  // Reading: ORDER BY createdAt DESC LIMIT limit OFFSET offset, plus COUNT(*)
  // ---------------------------------------------------------------------------

  /** Rows ordered by `createdAt`, newest first. */
  predicate NewestFirst(rows: seq<Record>) {
    forall i, j :: 0 <= i < j < |rows| ==> rows[i].createdAt >= rows[j].createdAt
  }

  /** Rows in the order they were created: `createdAt` never decreases. */
  predicate Chronological(rows: seq<Record>) {
    forall i, j :: 0 <= i < j < |rows| ==> rows[i].createdAt <= rows[j].createdAt
  }

  /** Inserts `r` into a newest-first list ahead of every row at most as new as itself. */
  function InsertNewestFirst(r: Record, sorted: seq<Record>): (out: seq<Record>)
    ensures |out| == |sorted| + 1
    ensures out[0] == r || (|sorted| > 0 && out[0] == sorted[0])
    ensures multiset(out) == multiset(sorted) + multiset{r}
  {
    if |sorted| == 0 || sorted[0].createdAt <= r.createdAt then [r] + sorted
    else
      var rest := InsertNewestFirst(r, sorted[1..]);
      assert sorted == [sorted[0]] + sorted[1..];
      [sorted[0]] + rest
  }

  lemma {:induction false} InsertKeepsNewestFirst(r: Record, sorted: seq<Record>)
    requires NewestFirst(sorted)
    ensures NewestFirst(InsertNewestFirst(r, sorted))
  {
    if |sorted| > 0 && sorted[0].createdAt > r.createdAt {
      var rest := InsertNewestFirst(r, sorted[1..]);
      InsertKeepsNewestFirst(r, sorted[1..]);
      assert rest[0].createdAt <= sorted[0].createdAt;
      var out := [sorted[0]] + rest;
      forall i, j | 0 <= i < j < |out|
        ensures out[i].createdAt >= out[j].createdAt
      {
        if i == 0 && j > 1 {
          assert rest[0].createdAt >= rest[j - 1].createdAt;
        }
      }
    }
  }

  /**
   * The table ordered by `createdAt` descending. The source leaves the order of rows with
   * equal timestamps to the database; the model puts the later-inserted row first.
   */
  function SortNewestFirst(rows: seq<Record>): (out: seq<Record>)
    ensures NewestFirst(out)
    ensures multiset(out) == multiset(rows)
  {
    if |rows| == 0 then []
    else
      var last := rows[|rows| - 1];
      assert rows == rows[..|rows| - 1] + [last];
      InsertKeepsNewestFirst(last, SortNewestFirst(rows[..|rows| - 1]));
      InsertNewestFirst(last, SortNewestFirst(rows[..|rows| - 1]))
  }

  function Reverse(rows: seq<Record>): (out: seq<Record>)
    ensures |out| == |rows|
    ensures forall i :: 0 <= i < |rows| ==> out[i] == rows[|rows| - 1 - i]
  {
    if |rows| == 0 then [] else [rows[|rows| - 1]] + Reverse(rows[..|rows| - 1])
  }

  /** Rows written in chronological order come back newest first, i.e. reversed. */
  lemma {:induction false} SortChronological(rows: seq<Record>)
    requires Chronological(rows)
    ensures SortNewestFirst(rows) == Reverse(rows)
  {
    if |rows| > 0 {
      var prefix := rows[..|rows| - 1];
      var last := rows[|rows| - 1];
      SortChronological(prefix);
      var sorted := SortNewestFirst(prefix);
      assert |sorted| == 0 || sorted[0] == prefix[|prefix| - 1];
      assert InsertNewestFirst(last, sorted) == [last] + sorted;
    }
  }

  /** The elements of `s` from position `offset`, at most `limit` of them. */
  function Window<T>(s: seq<T>, offset: nat, limit: nat): (w: seq<T>)
    ensures |w| == Min(limit, Max(0, |s| - offset))
    ensures forall i :: 0 <= i < |w| ==> w[i] == s[offset + i]
  {
    if offset >= |s| then [] else s[offset..Min(offset + limit, |s|)]
  }

  /** `em.findAndCount(RequestHistory, {}, {orderBy: {createdAt: "DESC"}, limit, offset})`. */
  function FindAndCount(rows: seq<Record>, limit: nat, offset: nat): (found: Found)
    ensures found.total == |rows|
    ensures |found.items| == Min(limit, Max(0, |rows| - offset))
    ensures NewestFirst(found.items)
    ensures forall x :: x in found.items ==> x in rows
    ensures found.items == Window(SortNewestFirst(rows), offset, limit)
  {
    var sorted := SortNewestFirst(rows);
    var items := Window(sorted, offset, limit);
    assert forall i :: 0 <= i < |items| ==> items[i] in multiset(sorted);
    Found(items, |rows|)
  }

  /** The page of rows read and the row count of the whole table. */
  datatype Found = Found(items: seq<Record>, total: nat)
}

=== FILE: js_text.dfy ===
/**
 * The string primitives of the JavaScript runtime that the application relies on:
 * `trim`, `toLowerCase`/`toUpperCase`, `includes`, `startsWith`/`endsWith`,
 * decimal number formatting (`String(n)`) and `parseInt(s, 10)`.
 */
module JsText {
  import opened Common

  /** ECMAScript WhiteSpace and LineTerminator code points: what `trim` strips and `parseInt` skips. */
  predicate IsSpace(c: char) {
    || c == '\t' || c == '\n' || c == '\U{000B}' || c == '\U{000C}' || c == '\r' || c == ' '
    || c == '\U{00A0}' || c == '\U{1680}' || ('\U{2000}' <= c <= '\U{200A}')
    || c == '\U{2028}' || c == '\U{2029}' || c == '\U{202F}' || c == '\U{205F}'
    || c == '\U{3000}' || c == '\U{FEFF}'
  }

  /** `s.trimStart()`: the longest suffix of `s` that does not start with white space. */
  function TrimStart(s: string): (r: string)
    ensures |r| <= |s| && r == s[|s| - |r|..]
    ensures forall i :: 0 <= i < |s| - |r| ==> IsSpace(s[i])
    ensures |r| > 0 ==> !IsSpace(r[0])
  {
    if |s| > 0 && IsSpace(s[0]) then TrimStart(s[1..]) else s
  }

  /** `s.trimEnd()`: the longest prefix of `s` that does not end with white space. */
  function TrimEnd(s: string): (r: string)
    ensures |r| <= |s| && r == s[..|r|]
    ensures forall i :: |r| <= i < |s| ==> IsSpace(s[i])
    ensures |r| > 0 ==> !IsSpace(r[|r| - 1])
  {
    if |s| > 0 && IsSpace(s[|s| - 1]) then TrimEnd(s[..|s| - 1]) else s
  }

  /** `s.trim()`. */
  function Trim(s: string): string {
    TrimEnd(TrimStart(s))
  }

  predicate StartsWith(s: string, prefix: string) {
    |prefix| <= |s| && s[..|prefix|] == prefix
  }

  predicate EndsWith(s: string, suffix: string) {
    |suffix| <= |s| && s[|s| - |suffix|..] == suffix
  }

  /** `s.includes(sub)`. */
  predicate Contains(s: string, sub: string) {
    StartsWith(s, sub) || (|s| > 0 && Contains(s[1..], sub))
  }

  /** Case mapping of one character; only the ASCII letters are mapped. */
  function LowerChar(c: char): char {
    if 'A' <= c <= 'Z' then (c as int + 32) as char else c
  }

  function UpperChar(c: char): char {
    if 'a' <= c <= 'z' then (c as int - 32) as char else c
  }

  /** `s.toLowerCase()` (ASCII letters only). */
  function ToLower(s: string): string {
    seq(|s|, i requires 0 <= i < |s| => LowerChar(s[i]))
  }

  /** `s.toUpperCase()` (ASCII letters only). */
  function ToUpper(s: string): string {
    seq(|s|, i requires 0 <= i < |s| => UpperChar(s[i]))
  }

  /** No ASCII lower-case letter occurs in `s`. */
  predicate NoLowerCase(s: string) {
    forall i :: 0 <= i < |s| ==> !('a' <= s[i] <= 'z')
  }

  /** Upper-casing what was lower-cased restores any text without lower-case letters. */
  lemma UpperOfLower(s: string)
    requires NoLowerCase(s)
    ensures ToUpper(ToLower(s)) == s
  {
    forall i | 0 <= i < |s|
      ensures ToUpper(ToLower(s))[i] == s[i]
    {
      assert ToLower(s)[i] == LowerChar(s[i]);
    }
  }

  // ---------------------------------------------------------------------------
  // Decimal digits, `String(n)` and `parseInt(s, 10)`
  // ---------------------------------------------------------------------------

  predicate IsDigit(c: char) { '0' <= c <= '9' }

  predicate AllDigits(s: string) {
    forall i :: 0 <= i < |s| ==> IsDigit(s[i])
  }

  function DigitValue(c: char): nat
    requires IsDigit(c)
  {
    c as int - '0' as int
  }

  function DigitChar(d: nat): (c: char)
    requires d < 10
    ensures IsDigit(c) && DigitValue(c) == d
  {
    ('0' as int + d) as char
  }

  /** The value of a string of decimal digits, most significant first. */
  function DigitsValue(d: string): nat
    requires AllDigits(d)
  {
    if |d| == 0 then 0 else DigitsValue(d[..|d| - 1]) * 10 + DigitValue(d[|d| - 1])
  }

  /** The longest prefix of `s` made of decimal digits. */
  function DigitPrefix(s: string): (d: string)
    ensures |d| <= |s| && d == s[..|d|]
    ensures AllDigits(d)
    ensures |d| < |s| ==> !IsDigit(s[|d|])
  {
    if |s| > 0 && IsDigit(s[0]) then [s[0]] + DigitPrefix(s[1..]) else ""
  }

  /** `String(n)` for a non-negative integer: its shortest decimal numeral. */
  function NatToString(n: nat): (s: string)
    ensures |s| > 0 && AllDigits(s)
    ensures s[0] == '0' ==> n == 0
    ensures DigitsValue(s) == n
  {
    if n < 10 then [DigitChar(n)]
    else
      var front := NatToString(n / 10);
      var s := front + [DigitChar(n % 10)];
      assert s[..|s| - 1] == front;
      s
  }

  /** `String(i)` for an integer. */
  function IntToString(i: int): (s: string)
    ensures |s| > 0
    ensures s[0] == '-' <==> i < 0
  {
    if i < 0 then "-" + NatToString(-i) else NatToString(i)
  }

  /** A numeral is made of digits and a leading minus sign only. */
  lemma NumeralHasNo(i: int, c: char)
    requires !IsDigit(c) && c != '-'
    ensures c !in IntToString(i)
  {
    if i < 0 {
      assert IntToString(i)[1..] == NatToString(-i);
    }
  }

  /**
   * `parseInt(s, 10)`: skip leading white space, take an optional sign, then the
   * longest run of decimal digits; `None` stands for NaN (no digits at all).
   */
  function ParseInt(s: string): Option<int> {
    var t := TrimStart(s);
    var negative := |t| > 0 && t[0] == '-';
    var unsigned := if |t| > 0 && (t[0] == '-' || t[0] == '+') then t[1..] else t;
    var digits := DigitPrefix(unsigned);
    var magnitude: int := DigitsValue(digits);
    if |digits| == 0 then None
    else if negative then Some(-magnitude)
    else Some(magnitude)
  }

  lemma {:induction false} DigitPrefixOfDigits(s: string)
    requires AllDigits(s)
    ensures DigitPrefix(s) == s
  {
    if |s| > 0 {
      DigitPrefixOfDigits(s[1..]);
    }
  }

  /** The numeral `String(i)` reads back as `i` under `parseInt(·, 10)`. */
  lemma ParseIntRoundTrip(i: int)
    ensures ParseInt(IntToString(i)) == Some(i)
  {
    var s := IntToString(i);
    assert !IsSpace(s[0]);
    assert TrimStart(s) == s;
    if i < 0 {
      assert s[1..] == NatToString(-i);
      DigitPrefixOfDigits(NatToString(-i));
    } else {
      DigitPrefixOfDigits(s);
    }
  }

  /** After white space, `t` opens with a digit, or with a sign followed by a digit. */
  predicate OpensWithNumeral(t: string) {
    || (|t| > 0 && IsDigit(t[0]))
    || (|t| > 1 && (t[0] == '-' || t[0] == '+') && IsDigit(t[1]))
  }

  /**
   * `parseInt` is NaN exactly when, after leading white space and an optional sign, no
   * digit follows — the empty text, `"abc"`, `"-"` and `"+x"` among them.
   */
  lemma ParseIntNaN(s: string)
    ensures ParseInt(s).None? <==> !OpensWithNumeral(TrimStart(s))
  {
  }
}

=== FILE: js_value.dfy ===
/**
 * JavaScript values as the application sees them after JSON decoding, with the
 * coercions it applies to them: truthiness, `typeof`, property access and
 * assignment, `String(v)`, `Number(v)` and `Object.entries(v)`.
 */
module JsValue {
  import opened Common
  import opened JsText

  /** A JavaScript value; numbers are integers (fractions, NaN and infinities are not modelled). */
  datatype Value =
    | Undefined
    | Null
    | Bool(b: bool)
    | Num(n: int)
    | Str(s: string)
    | Arr(elems: seq<Value>)
    | Obj(props: seq<Prop>)

  /** One own enumerable property of an object; an object lists its properties in insertion order. */
  datatype Prop = Prop(key: string, val: Value)

  /**
   * `JSON.stringify(v)`, `JSON.stringify(v, null, 2)` and `JSON.parse(s)`, left uninterpreted:
   * the model never looks inside JSON text. `parse` yields `None` where `JSON.parse` throws.
   */
  datatype JsonCodec = JsonCodec(
    stringify: Value -> string,
    prettyPrint: Value -> string,
    parse: string -> Option<Value>)

  /** JavaScript truthiness, as used by `if (v)`, `v || d` and `v && e`. */
  predicate Truthy(v: Value) {
    match v
    case Undefined => false
    case Null => false
    case Bool(b) => b
    case Num(n) => n != 0
    case Str(s) => s != ""
    case Arr(_) => true
    case Obj(_) => true
  }

  /** `typeof v === "object"` (true of `null` as well). */
  predicate IsObjectType(v: Value) {
    v.Null? || v.Arr? || v.Obj?
  }

  /** `v && typeof v === "object"`: the test the application applies before serialising a value. */
  predicate IsStructured(v: Value) {
    Truthy(v) && IsObjectType(v)
  }

  /** `v || d`. */
  function Or(v: Value, d: Value): Value {
    if Truthy(v) then v else d
  }

  // ---------------------------------------------------------------------------
  // Objects
  // ---------------------------------------------------------------------------

  function KeysOf(props: seq<Prop>): (keys: set<string>)
    ensures forall i :: 0 <= i < |props| ==> props[i].key in keys
    ensures forall k :: k in keys ==> exists i :: 0 <= i < |props| && props[i].key == k
  {
    if |props| == 0 then {} else {props[0].key} + KeysOf(props[1..])
  }

  /** An object never has two properties with the same key. */
  predicate DistinctKeys(props: seq<Prop>) {
    forall i, j :: 0 <= i < j < |props| ==> props[i].key != props[j].key
  }

  /** `o[key]` on an object's property list: the value stored under `key`, or `undefined`. */
  function Lookup(props: seq<Prop>, key: string): (v: Value)
    ensures key !in KeysOf(props) ==> v == Undefined
  {
    if |props| == 0 then Undefined
    else if props[0].key == key then props[0].val
    else Lookup(props[1..], key)
  }

  /** The first property with a given key is the one `Lookup` finds. */
  lemma {:induction false} LookupFirst(props: seq<Prop>, i: nat)
    requires i < |props|
    requires forall j :: 0 <= j < i ==> props[j].key != props[i].key
    ensures Lookup(props, props[i].key) == props[i].val
  {
    if i > 0 {
      LookupFirst(props[1..], i - 1);
    }
  }

  /** Property access `v[key]` on a value that is not `null` or `undefined`. */
  function Field(v: Value, key: string): Value {
    if v.Obj? then Lookup(v.props, key) else Undefined
  }

  /**
   * `o[key] = val`: an existing property keeps its position and takes the new value;
   * a new key is appended after the existing ones.
   */
  function Assign(props: seq<Prop>, key: string, val: Value): (r: seq<Prop>)
    ensures Lookup(r, key) == val
    ensures forall k :: k != key ==> Lookup(r, k) == Lookup(props, k)
  {
    if |props| == 0 then [Prop(key, val)]
    else if props[0].key == key then [Prop(key, val)] + props[1..]
    else
      var rest := Assign(props[1..], key, val);
      assert ([props[0]] + rest)[1..] == rest;
      [props[0]] + rest
  }

  /** Assigning a key the object does not have yet appends one property at the end. */
  lemma {:induction false} AssignFreshKey(props: seq<Prop>, key: string, val: Value)
    requires key !in KeysOf(props)
    ensures Assign(props, key, val) == props + [Prop(key, val)]
  {
    if |props| > 0 {
      assert props[0].key != key;
      AssignFreshKey(props[1..], key, val);
      assert [props[0]] + (props[1..] + [Prop(key, val)]) == props + [Prop(key, val)];
    }
  }

  /**
   * Assignment keeps an object's keys distinct, and every property after it is either the
   * assigned one or a property the object already had.
   */
  lemma {:induction false} AssignKeepsDistinct(props: seq<Prop>, key: string, val: Value)
    requires DistinctKeys(props)
    ensures DistinctKeys(Assign(props, key, val))
    ensures forall p :: p in Assign(props, key, val) ==> p == Prop(key, val) || p in props
  {
    if |props| > 0 && props[0].key != key {
      var rest := Assign(props[1..], key, val);
      AssignKeepsDistinct(props[1..], key, val);
      var r := [props[0]] + rest;
      forall i, j | 0 <= i < j < |r|
        ensures r[i].key != r[j].key
      {
        if i == 0 {
          assert r[j] in rest;
        }
      }
    }
  }

  /** `Object.entries(v)` for an array: index numerals paired with the elements. */
  function ArrayEntries(elems: seq<Value>): (r: seq<Prop>)
    ensures |r| == |elems|
    ensures forall i :: 0 <= i < |r| ==> r[i] == Prop(NatToString(i), elems[i])
  {
    seq(|elems|, i requires 0 <= i < |elems| => Prop(NatToString(i), elems[i]))
  }

  // ---------------------------------------------------------------------------
  // Coercions
  // ---------------------------------------------------------------------------

  /** `String(v)`. */
  function ToStr(v: Value): string
    decreases v
  {
    match v
    case Undefined => "undefined"
    case Null => "null"
    case Bool(b) => if b then "true" else "false"
    case Num(n) => IntToString(n)
    case Str(s) => s
    case Arr(elems) => Join(elems)
    case Obj(_) => "[object Object]"
  }

  /** `elems.join(",")`, where `null` and `undefined` elements print as nothing. */
  function Join(elems: seq<Value>): string
    decreases elems
  {
    if |elems| == 0 then ""
    else
      var last := elems[|elems| - 1];
      var shown := if last.Undefined? || last.Null? then "" else ToStr(last);
      if |elems| == 1 then shown else Join(elems[..|elems| - 1]) + "," + shown
  }

  /**
   * `Number(s)` for a string: blank text is 0, an optionally signed run of decimal digits
   * is its value, anything else is NaN (`None`).
   */
  function StringToNumber(s: string): Option<int> {
    var t := Trim(s);
    var unsigned := if |t| > 0 && (t[0] == '-' || t[0] == '+') then t[1..] else t;
    var magnitude: int := if AllDigits(unsigned) then DigitsValue(unsigned) else 0;
    if t == "" then Some(0)
    else if |unsigned| == 0 || !AllDigits(unsigned) then None
    else if t[0] == '-' then Some(-magnitude)
    else Some(magnitude)
  }

  /** `Number(v)`, with `None` standing for NaN. */
  function ToNumber(v: Value): Option<int> {
    match v
    case Undefined => None
    case Null => Some(0)
    case Bool(b) => Some(if b then 1 else 0)
    case Num(n) => Some(n)
    case Str(s) => StringToNumber(s)
    case Arr(_) => StringToNumber(ToStr(v))
    case Obj(_) => None
  }

  /** `Number(s)` reads back the numeral `String(n)`. */
  lemma StringToNumberRoundTrip(n: int)
    ensures StringToNumber(IntToString(n)) == Some(n)
  {
    var s := IntToString(n);
    TrimOfNumeral(n);
    if n < 0 {
      assert s[1..] == NatToString(-n);
    }
  }

  lemma TrimOfNumeral(n: int)
    ensures Trim(IntToString(n)) == IntToString(n)
  {
    var s := IntToString(n);
    assert !IsSpace(s[0]);
    assert TrimStart(s) == s;
    assert IsDigit(s[|s| - 1]);
    assert !IsSpace(s[|s| - 1]);
  }
}

=== FILE: page.dfy ===
/**
 * The home page's logic: the history pagination it starts from, how it fetches a history
 * page, how it handles the reply of a send, how a page change is clamped, and how a history
 * entry is turned back into form values for a replay.
 */
module HomePage {
  import opened Common
  import opened JsText
  import opened JsValue
  import opened RequestHistoryEntity
  import opened HistoryRoute
  import opened RequestForm
  import opened UrlQuery
  import SendRequestRoute

  const InitialPagination: Pagination := Pagination(1, 10, 0, 1)

  /**
   * The page state that survives a handler: the last send reply, the send error, the
   * history page with its pagination, the history error, and the form's initial values.
   * `null` is `Null` for the response and the two errors.
   */
  datatype Home = Home(
    response: Value,
    error: Value,
    history: seq<Record>,
    pagination: Pagination,
    historyError: Value,
    formValues: InitialValues)

  /** The page as it first renders: no response, no errors, no history, an empty `requestFormValues`. */
  const InitialHome: Home := Home(Null, Null, [], InitialPagination, Null, NoValues)

  // ---------------------------------------------------------------------------
  // Fetching history
  // ---------------------------------------------------------------------------

  /** `Number(v) || fallback`: zero and NaN take the fallback. */
  function NumberOr(v: Value, fallback: int): (n: int)
    ensures ToNumber(v).Some? && ToNumber(v).value != 0 ==> n == ToNumber(v).value
    ensures ToNumber(v).None? || ToNumber(v).value == 0 ==> n == fallback
  {
    match ToNumber(v)
    case Some(x) => if x != 0 then x else fallback
    case None => fallback
  }

  /** The page and limit a history fetch puts in its query string. */
  datatype HistoryQuery = HistoryQuery(page: int, limit: int)

  /** `fetchHistory(pageToFetch, limitToFetch)`: the arguments coerced with `Number(x) || default`. */
  function FetchArguments(pageToFetch: Value, limitToFetch: Value): (q: HistoryQuery)
    ensures q.page != 0 && q.limit != 0
    ensures q.page == (if ToNumber(pageToFetch).Some? && ToNumber(pageToFetch).value != 0
                       then ToNumber(pageToFetch).value else 1)
    ensures q.limit == (if ToNumber(limitToFetch).Some? && ToNumber(limitToFetch).value != 0
                        then ToNumber(limitToFetch).value else 10)
  {
    HistoryQuery(NumberOr(pageToFetch, 1), NumberOr(limitToFetch, 10))
  }

  /** The `page` and `limit` query parameters as the endpoint receives them. */
  function PageParam(q: HistoryQuery): string {
    IntToString(q.page)
  }

  function LimitParam(q: HistoryQuery): string {
    IntToString(q.limit)
  }

  /** `/api/history?page=${page}&limit=${limit}`. */
  function HistoryUrl(q: HistoryQuery): (url: string)
    ensures StartsWith(url, "/api/history?page=")
  {
    var prefix := "/api/history?page=";
    var url := prefix + PageParam(q) + "&limit=" + LimitParam(q);
    assert url[..|prefix|] == prefix;
    url
  }

  /** The endpoint reads back the page and the limit the URL was built with. */
  lemma HistoryUrlCarriesQuery(q: HistoryQuery)
    ensures SearchParam(HistoryUrl(q), "page") == Some(PageParam(q))
    ensures SearchParam(HistoryUrl(q), "limit") == Some(LimitParam(q))
  {
    NumeralHasNo(q.page, '&');
    NumeralHasNo(q.limit, '&');
    assert HistoryUrl(q) == "/api/history" + "?" + "page" + "=" + PageParam(q) + "&" + "limit" + "=" + LimitParam(q);
    TwoParams("/api/history", "page", PageParam(q), "limit", LimitParam(q));
  }

  /** How a history fetch ended: the endpoint replied, or `fetch`/`res.json()` threw. */
  datatype HistoryFetch = Fetched(reply: HistoryReply) | FetchFailed(message: string)

  /** The JSON body of an endpoint error: `{error}` or `{error, details}`. */
  function HistoryErrorJson(reply: HistoryReply): (v: Value)
    requires reply.HistoryError?
    ensures Field(v, "error") == Str(reply.error)
  {
    var props := [Prop("error", Str(reply.error))]
                 + (if reply.details.Some? then [Prop("details", Str(reply.details.value))] else []);
    LookupFirst(props, 0);
    Obj(props)
  }

  /**
   * An `Error` object as `JSON.stringify` sees it: its `message` is not enumerable, so it
   * encodes as `{}`.
   */
  const ErrorObjectJson: Value := Obj([])

  /** The `catch` of `fetchHistory`: an error carrying `error` is kept, anything else is wrapped. */
  function HistoryErrorOf(err: Value): (shown: Value)
    ensures Truthy(Field(err, "error")) ==> shown == err
    ensures !Truthy(Field(err, "error")) ==>
              && Field(shown, "error") == Str("Failed to fetch history")
              && Field(shown, "details") == Or(Field(err, "message"), err)
  {
    if Truthy(Field(err, "error")) then err
    else
      var props := [Prop("error", Str("Failed to fetch history")), Prop("details", Or(Field(err, "message"), err))];
      LookupFirst(props, 0);
      LookupFirst(props, 1);
      Obj(props)
  }

  /**
   * The state after a history fetch: a page replaces the list and the pagination; any
   * failure sets the history error and empties the list, keeping the pagination.
   */
  function ApplyHistoryFetch(home: Home, fetch: HistoryFetch): (home': Home)
    ensures home'.response == home.response && home'.error == home.error
    ensures home'.formValues == home.formValues
    ensures fetch.Fetched? && fetch.reply.HistoryPage? ==>
              home' == home.(history := fetch.reply.items, pagination := fetch.reply.pagination, historyError := Null)
    ensures !(fetch.Fetched? && fetch.reply.HistoryPage?) ==>
              home'.history == [] && home'.pagination == home.pagination && Truthy(home'.historyError)
  {
    match fetch
    case Fetched(HistoryPage(items, pagination)) =>
      home.(history := items, pagination := pagination, historyError := Null)
    case Fetched(reply) =>
      var shown := HistoryErrorOf(HistoryErrorJson(reply));
      home.(history := [], historyError := shown)
    case FetchFailed(message) =>
      var err := if message != "" then Str(message) else ErrorObjectJson;
      var props := [Prop("error", Str("Failed to fetch history")), Prop("details", err)];
      home.(history := [], historyError := Obj(props))
  }

  /** Every error reply of the endpoint carries `error`, so it is shown unchanged. */
  lemma EndpointErrorShownAsIs(home: Home, reply: HistoryReply)
    requires reply.HistoryError? && reply.error != ""
    ensures ApplyHistoryFetch(home, Fetched(reply)).historyError == HistoryErrorJson(reply)
  {
  }

  // ---------------------------------------------------------------------------
  // Sending a request
  // ---------------------------------------------------------------------------

  /** How the `fetch` of `/api/send-request` ended: a reply of the relay, or a thrown `Error`. */
  datatype SendFetch = Delivered(reply: SendRequestRoute.Reply) | Undelivered(message: string)

  /**
   * What `fetch` and `res.json()` make of what the relay delivered: a JSON reply is read as
   * sent; the framework's bare 500 has no JSON body, so `res.json()` throws `parseError`.
   */
  function Received(d: SendRequestRoute.Delivery, parseError: string): (sent: SendFetch)
    ensures d.JsonReply? <==> sent.Delivered?
    ensures d.JsonReply? ==> sent.reply == d.reply
    ensures d.BareServerError? ==> sent == Undelivered(parseError)
  {
    match d
    case JsonReply(reply) => Delivered(reply)
    case BareServerError => Undelivered(parseError)
  }

  /** `res.ok`. */
  predicate IsOk(status: int) {
    200 <= status < 300
  }

  /** What `handleSendRequest` throws for a reply that is not ok. */
  function NotOkError(reply: SendRequestRoute.Reply): (err: Value)
    ensures Truthy(Field(reply.body, "error")) ==> err == reply.body
    ensures !Truthy(Field(reply.body, "error")) ==>
              && Field(err, "error") == Str("API Error " + IntToString(reply.status))
              && Field(err, "details") == reply.body
    ensures Truthy(Field(err, "error"))
  {
    if Truthy(Field(reply.body, "error")) then reply.body
    else
      var props := [Prop("error", Str("API Error " + IntToString(reply.status))), Prop("details", reply.body)];
      LookupFirst(props, 0);
      LookupFirst(props, 1);
      Obj(props)
  }

  /** A thrown value as the `catch` block sees it. */
  datatype Caught = CaughtValue(v: Value) | CaughtError(message: string)

  /**
   * The `catch` of `handleSendRequest`: a thrown value carrying `error` becomes the error
   * as is; anything else becomes "Request Failed" with the best description available.
   */
  function SendErrorOf(err: Caught, codec: JsonCodec): (shown: Value)
    ensures err.CaughtValue? && Truthy(Field(err.v, "error")) ==> shown == err.v
    ensures err.CaughtError? ==>
              && Field(shown, "error") == Str("Request Failed")
              && Field(shown, "details") == Str(if err.message != "" then err.message else codec.stringify(ErrorObjectJson))
  {
    match err
    case CaughtValue(v) =>
      if Truthy(Field(v, "error")) then v
      else
        var details :=
          if v.Str? then v
          else if Truthy(Field(v, "message")) then Field(v, "message")
          else if IsObjectType(v) && !v.Null? then Str(codec.stringify(v))
          else Str("An unknown error occurred.");
        Obj([Prop("error", Str("Request Failed")), Prop("details", details)])
    case CaughtError(message) =>
      var details := if message != "" then message else codec.stringify(ErrorObjectJson);
      var props := [Prop("error", Str("Request Failed")), Prop("details", Str(details))];
      LookupFirst(props, 0);
      LookupFirst(props, 1);
      Obj(props)
  }

  /** The state after a send, and the history fetch it triggers, if any. */
  datatype SendStep = SendStep(home: Home, refetch: Option<HistoryQuery>)

  /**
   * `handleSendRequest` once `fetch` has settled: an ok reply becomes the response and
   * triggers a fetch of page 1 with the current limit; any other outcome sets the error and
   * leaves the response empty.
   */
  function HandleSend(home: Home, sent: SendFetch, codec: JsonCodec): (step: SendStep)
    ensures step.home.history == home.history && step.home.pagination == home.pagination
    ensures step.home.historyError == home.historyError && step.home.formValues == home.formValues
    ensures step.refetch.Some? <==> sent.Delivered? && IsOk(sent.reply.status)
    ensures step.refetch.Some? ==>
              && step.home.response == sent.reply.body && step.home.error == Null
              && step.refetch.value == FetchArguments(Num(1), Num(home.pagination.limit))
    ensures step.refetch.None? ==> step.home.response == Null && Truthy(step.home.error)
    ensures sent.Delivered? && !IsOk(sent.reply.status) ==> step.home.error == NotOkError(sent.reply)
  {
    var cleared := home.(response := Null, error := Null);
    match sent
    case Delivered(reply) =>
      if IsOk(reply.status) then
        SendStep(cleared.(response := reply.body), Some(FetchArguments(Num(1), Num(home.pagination.limit))))
      else
        SendStep(cleared.(error := SendErrorOf(CaughtValue(NotOkError(reply)), codec)), None)
    case Undelivered(message) =>
      SendStep(cleared.(error := SendErrorOf(CaughtError(message), codec)), None)
  }

  /** A relay error reply is shown exactly as the relay sent it. */
  lemma RelayErrorShownAsIs(home: Home, reply: SendRequestRoute.Reply, codec: JsonCodec)
    requires !IsOk(reply.status) && Truthy(SendRequestRoute.ErrorOf(reply))
    ensures HandleSend(home, Delivered(reply), codec).home.error == reply.body
  {
  }

  // ---------------------------------------------------------------------------
  // Changing page
  // ---------------------------------------------------------------------------

  /** `handlePageChange(newPage)`: fetch `max(1, newPage)` with the current limit. */
  function HandlePageChange(home: Home, newPage: int): (q: HistoryQuery)
    ensures q.page >= 1
    ensures newPage >= 1 ==> q.page == newPage
    ensures q.limit == (if home.pagination.limit != 0 then home.pagination.limit else 10)
  {
    FetchArguments(Num(Max(1, newPage)), Num(home.pagination.limit))
  }

  // ---------------------------------------------------------------------------
  // Replaying a history entry
  // ---------------------------------------------------------------------------

  /** `Object.entries(v)` for an object or an array. */
  function Entries(v: Value): (entries: seq<Prop>)
    requires v.Obj? || v.Arr?
    ensures v.Obj? ==> entries == v.props
    ensures v.Arr? ==> |entries| == |v.elems|
  {
    if v.Obj? then v.props else ArrayEntries(v.elems)
  }

  /** Each entry as a header row whose value is `String(value)`. */
  function EntryRows(entries: seq<Prop>): (rows: seq<HeaderRow>)
    ensures |rows| == |entries|
    ensures forall i :: 0 <= i < |rows| ==> rows[i] == HeaderRow(entries[i].key, ToStr(entries[i].val))
  {
    seq(|entries|, i requires 0 <= i < |entries| => HeaderRow(entries[i].key, ToStr(entries[i].val)))
  }

  /**
   * The header rows of a replay: one per entry of an object or array, or a single blank row
   * when there are none or the stored headers are not an object.
   */
  function ReplayHeaders(headers: Value): (rows: seq<HeaderRow>)
    ensures |rows| > 0
    ensures IsStructured(headers) && |Entries(headers)| > 0 ==> rows == EntryRows(Entries(headers))
    ensures !IsStructured(headers) || |Entries(headers)| == 0 ==> rows == [BlankRow]
  {
    var rows := if IsStructured(headers) then EntryRows(Entries(headers)) else [];
    if |rows| == 0 then [BlankRow] else rows
  }

  /**
   * The body text of a replay: pretty-printed JSON for an object or array, "" for a falsy
   * body, `String(body)` otherwise.
   */
  function ReplayBody(body: Value, codec: JsonCodec): (text: string)
    ensures IsStructured(body) ==> text == codec.prettyPrint(body)
    ensures !Truthy(body) ==> text == ""
    ensures Truthy(body) && !IsObjectType(body) ==> text == ToStr(body)
  {
    if IsStructured(body) then codec.prettyPrint(body) else ToStr(Or(body, Str("")))
  }

  /** `handleReplayRequest(item)`: the form values a history entry is replayed with. */
  function Replay(item: Record, codec: JsonCodec): (iv: InitialValues)
    ensures iv.Values?
    ensures iv.url == item.url && iv.httpMethod == ToUpper(item.httpMethod)
    ensures iv.body == ReplayBody(item.requestBody, codec)
    ensures iv.headers == ReplayHeaders(item.requestHeaders)
  {
    Values(item.url, ToUpper(item.httpMethod), ReplayBody(item.requestBody, codec), ReplayHeaders(item.requestHeaders))
  }

  /**
   * `handleReplayRequest(item)`: only the form values change. The form is keyed by their
   * JSON, so it mounts afresh with them when they differ from the current ones.
   */
  function HandleReplay(home: Home, item: Record, codec: JsonCodec): (home': Home)
    ensures home'.response == home.response && home'.error == home.error
    ensures home'.history == home.history && home'.pagination == home.pagination
    ensures home'.historyError == home.historyError
    ensures Truthy(item.url) ==> Init(home'.formValues).url == item.url
    ensures item.httpMethod != "" ==> Init(home'.formValues).httpMethod == ToUpper(item.httpMethod)
    ensures Init(home'.formValues).headers == ReplayHeaders(item.requestHeaders)
  {
    home.(formValues := Replay(item, codec))
  }

  /**
   * A header object with distinct, non-empty keys and string values comes back from the
   * rows of its entries: the header map the form submits is the object itself.
   */
  lemma {:induction false} HeaderPropsOfEntries(props: seq<Prop>)
    requires DistinctKeys(props)
    requires forall i :: 0 <= i < |props| ==> props[i].key != "" && props[i].val.Str?
    ensures HeaderProps(EntryRows(props)) == props
  {
    if |props| > 0 {
      var n := |props|;
      var prefix := props[..n - 1];
      var last := props[n - 1];
      var rows := EntryRows(props);
      assert rows[..n - 1] == EntryRows(prefix);
      HeaderPropsOfEntries(prefix);
      assert last.key !in KeysOf(prefix);
      AssignFreshKey(prefix, last.key, Str(ToStr(last.val)));
      assert prefix + [last] == props;
    }
  }

  /** The header rows of a replayed header object rebuild that object. */
  lemma ReplayedHeaderMap(props: seq<Prop>)
    requires DistinctKeys(props)
    requires forall p :: p in props ==> p.key != "" && p.val.Str?
    ensures HeaderProps(ReplayHeaders(Obj(props))) == props
  {
    if |props| == 0 {
      assert ReplayHeaders(Obj(props)) == [] + [BlankRow];
      BlankKeysIgnored([], "");
    } else {
      assert forall i :: 0 <= i < |props| ==> props[i] in props;
      HeaderPropsOfEntries(props);
    }
  }
}

=== FILE: pipeline.dfy ===
/**
 * Properties that span the client and the two endpoints: what the form sends is what the
 * relay stores, replaying a stored entry restores the form, and the history queries the
 * page issues are the pages the history endpoint serves.
 */
module Pipeline {
  import opened Common
  import opened JsText
  import opened JsValue
  import opened RequestHistoryEntity
  import opened HistoryStore
  import opened Db
  import opened SendRequestRoute
  import opened HistoryRoute
  import opened RequestForm
  import opened HomePage
  import opened UrlQuery

  // ---------------------------------------------------------------------------
  // Replay restores the form
  // ---------------------------------------------------------------------------

  /**
   * Replaying an entry whose headers are an object with distinct, non-empty keys and string
   * values, then submitting, sends exactly that header object.
   */
  lemma ReplayReproducesHeaderMap(item: Record, props: seq<Prop>, codec: JsonCodec)
    requires item.requestHeaders == Obj(props)
    requires DistinctKeys(props)
    requires forall p :: p in props ==> p.key != "" && p.val.Str?
    ensures Submit(Init(Replay(item, codec)), codec).Some?
    ensures Submit(Init(Replay(item, codec)), codec).value.headers == Obj(props)
  {
    var st := Init(Replay(item, codec));
    assert st.headers == ReplayHeaders(Obj(props));
    ReplayedHeaderMap(props);
  }

  /** Every method the selector offers is written in capitals. */
  lemma MethodsAreUpperCase(m: string)
    requires m in HttpMethods
    ensures NoLowerCase(m) && m != ""
  {
  }

  /**
   * Send a form whose method comes from the selector, let the relay store it, and replay any
   * entry the relay wrote: the replayed form has the same URL and method and submits the
   * same header map.
   */
  lemma {:induction false} SendThenReplay(st: FormState, em: EntityManager, transport: TransportOutcome,
                                          saves: seq<SaveResult>, codec: JsonCodec, now: nat)
    requires Truthy(st.url) && st.httpMethod in HttpMethods
    ensures var wire := WireObject(Submit(st, codec).value);
            var out := Post(Ok(em), Parsed(wire), transport, saves, codec, now);
            && |out.writes| >= 1
            && forall r :: r in out.writes ==>
                 var replayed := Init(Replay(r, codec));
                 && replayed.url == st.url
                 && replayed.httpMethod == st.httpMethod
                 && Submit(replayed, codec).value.headers == Submit(st, codec).value.headers
  {
    var s := Submit(st, codec).value;
    var wire := WireObject(s);
    MethodsAreUpperCase(st.httpMethod);
    UpperOfLower(st.httpMethod);
    assert ReachesOutboundCall(Ok(em), Parsed(wire), codec);
    OutboundMatchesRecords(Ok(em), Parsed(wire), transport, saves, codec, now);
    var out := Post(Ok(em), Parsed(wire), transport, saves, codec, now);
    HeaderMapWellFormed(st.headers);
    forall r | r in out.writes
      ensures var replayed := Init(Replay(r, codec));
              && replayed.url == st.url
              && replayed.httpMethod == st.httpMethod
              && Submit(replayed, codec).value.headers == s.headers
    {
      assert r.httpMethod == ToLower(st.httpMethod);
      assert r.requestHeaders == Obj(HeaderProps(st.headers));
      ReplayReproducesHeaderMap(r, HeaderProps(st.headers), codec);
    }
  }

  /**
   * The body half of a send and replay: the relay forwards the body the form submitted and
   * stores its serialised form; replaying a plain-text body restores the typed text, and a
   * GET or HEAD entry replays with an empty body.
   */
  lemma SendThenReplayBody(st: FormState, em: EntityManager, transport: TransportOutcome,
                           saves: seq<SaveResult>, codec: JsonCodec, now: nat)
    requires Truthy(st.url) && st.httpMethod in HttpMethods
    ensures var sent := Submit(st, codec).value;
            var out := Post(Ok(em), Parsed(WireObject(sent)), transport, saves, codec, now);
            && out.outbound.Some? && out.outbound.value.data == sent.body
            && (forall r :: r in out.writes ==> r.requestBody == StoredBody(sent.body, codec))
            && (!IsBodyless(st.httpMethod) && st.body != "" && !LooksLikeJson(st.body) ==>
                  forall r :: r in out.writes ==> Init(Replay(r, codec)).body == st.body)
            && (IsBodyless(st.httpMethod) ==>
                  forall r :: r in out.writes ==> Init(Replay(r, codec)).body == "")
  {
    var sent := Submit(st, codec).value;
    var wire := WireObject(sent);
    MethodsAreUpperCase(st.httpMethod);
    UpperOfLower(st.httpMethod);
    assert ReachesOutboundCall(Ok(em), Parsed(wire), codec);
    OutboundMatchesRecords(Ok(em), Parsed(wire), transport, saves, codec, now);
    var out := Post(Ok(em), Parsed(wire), transport, saves, codec, now);
    forall r | r in out.writes
      ensures !IsBodyless(st.httpMethod) && st.body != "" && !LooksLikeJson(st.body) ==>
                Init(Replay(r, codec)).body == st.body
      ensures IsBodyless(st.httpMethod) ==> Init(Replay(r, codec)).body == ""
    {
      var iv := Replay(r, codec);
      assert iv.httpMethod == st.httpMethod;
      if !IsBodyless(st.httpMethod) && st.body != "" && !LooksLikeJson(st.body) {
        assert sent.body == Str(st.body);
        assert r.requestBody == Str(st.body);
        assert ReplayBody(r.requestBody, codec) == st.body;
      }
    }
  }

  // ---------------------------------------------------------------------------
  // What the page shows for a relay reply
  // ---------------------------------------------------------------------------

  /** Every reply of the relay other than "External API Error" reaches the page as built. */
  lemma RelayRepliesReachPage(em: EntityManager, body: IncomingBody, transport: TransportOutcome,
                              saves: seq<SaveResult>, codec: JsonCodec, now: nat, parseError: string)
    requires ErrorOf(Post(Ok(em), body, transport, saves, codec, now).reply) != Str("External API Error")
    ensures var out := Post(Ok(em), body, transport, saves, codec, now);
            Received(Deliver(out.reply), parseError) == Delivered(out.reply)
  {
    OtherRepliesDelivered(Ok(em), body, transport, saves, codec, now);
  }

  /**
   * A remote status outside 100..599 never shows as "External API Error": the relay cannot
   * build that reply, `res.json()` fails on the bare 500, and the page reports
   * "Request Failed" with the parse error, without refetching the history.
   */
  lemma RefusedStatusShowsRequestFailed(home: Home, em: EntityManager, body: IncomingBody,
                                        transport: TransportOutcome, saves: seq<SaveResult>,
                                        codec: JsonCodec, now: nat, parseError: string)
    requires parseError != ""
    requires ErrorOf(Post(Ok(em), body, transport, saves, codec, now).reply) == Str("External API Error")
    ensures var out := Post(Ok(em), body, transport, saves, codec, now);
            var step := HandleSend(home, Received(Deliver(out.reply), parseError), codec);
            && step.refetch.None?
            && step.home.response == Null
            && Field(step.home.error, "error") == Str("Request Failed")
            && Field(step.home.error, "details") == Str(parseError)
  {
    ExternalErrorNeverDelivered(Ok(em), body, transport, saves, codec, now);
  }

  // ---------------------------------------------------------------------------
  // The history queries the page issues
  // ---------------------------------------------------------------------------

  /** The query parameters of a fetch's URL as the history endpoint parses them. */
  function EndpointRequest(q: HistoryQuery): PageRequest {
    ParsePageRequest(SearchParam(HistoryUrl(q), "page"), SearchParam(HistoryUrl(q), "limit"))
  }

  /** A query within the endpoint's bounds is accepted as itself. */
  lemma EndpointAccepts(q: HistoryQuery)
    requires q.page >= 1 && 1 <= q.limit <= MaxLimit
    ensures EndpointRequest(q) == PageRequest(q.page, q.limit)
  {
    HistoryUrlCarriesQuery(q);
    NumeralsAccepted(q.page, q.limit);
  }

  /** The fetch on mount asks for page 1 of 10, which the endpoint accepts. */
  lemma MountFetchAccepted()
    ensures var p := InitialHome.pagination;
            EndpointRequest(FetchArguments(Num(p.page), Num(p.limit))) == PageRequest(1, 10)
  {
    var p := InitialHome.pagination;
    var q := FetchArguments(Num(p.page), Num(p.limit));
    assert q == HistoryQuery(1, 10);
    EndpointAccepts(q);
  }

  /**
   * A page change never makes the endpoint refuse the page: with a limit the endpoint
   * accepted, it serves `max(1, newPage)` with that limit.
   */
  lemma PageChangeAccepted(home: Home, newPage: int)
    requires 1 <= home.pagination.limit <= MaxLimit
    ensures EndpointRequest(HandlePageChange(home, newPage)) == PageRequest(Max(1, newPage), home.pagination.limit)
  {
    var q := HandlePageChange(home, newPage);
    assert q == HistoryQuery(Max(1, newPage), home.pagination.limit);
    EndpointAccepts(q);
  }

  /** The fetch after a successful send asks for page 1 with the current limit. */
  lemma RefetchAfterSendAccepted(home: Home, sent: SendFetch, codec: JsonCodec)
    requires 1 <= home.pagination.limit <= MaxLimit
    requires sent.Delivered? && IsOk(sent.reply.status)
    ensures HandleSend(home, sent, codec).refetch.Some?
    ensures EndpointRequest(HandleSend(home, sent, codec).refetch.value) == PageRequest(1, home.pagination.limit)
  {
    var q := HandleSend(home, sent, codec).refetch.value;
    assert q == HistoryQuery(1, home.pagination.limit) by {
      assert q == FetchArguments(Num(1), Num(home.pagination.limit));
    }
    EndpointAccepts(q);
  }

  // ---------------------------------------------------------------------------
  // A new entry tops the history
  // ---------------------------------------------------------------------------

  /**
   * A record saved no earlier than every stored row is the first row of page 1, with the
   * id the store gave it.
   */
  lemma {:induction false} NewestWriteLeadsFirstPage(st: Store, r: Record, limit: int)
    requires 1 <= limit <= MaxLimit
    requires forall x :: x in st.rows ==> x.createdAt <= r.createdAt
    ensures var page := ServePage(1, limit, Persist(st, r, Saved).rows);
            |page.items| > 0 && page.items[0] == r.(id := Some(st.nextId))
  {
    var stored := r.(id := Some(st.nextId));
    var rows := Persist(st, r, Saved).rows;
    assert rows == st.rows + [stored];
    assert rows[..|rows| - 1] == st.rows;
    var sorted := SortNewestFirst(st.rows);
    if |sorted| > 0 {
      assert sorted[0] in multiset(st.rows);
    }
    assert SortNewestFirst(rows) == InsertNewestFirst(stored, sorted);
    assert SortNewestFirst(rows)[0] == stored;
  }
}

=== FILE: request_form.dfy ===
/**
 * The request form: the values it starts from, the editing of its header rows, and what
 * "Send" hands to the page — a header map built from the rows and a body that is
 * JSON-parsed only when it looks like a JSON object or array.
 */
module RequestForm {
  import opened Common
  import opened JsText
  import opened JsValue

  /** The methods the method selector offers. */
  const HttpMethods: seq<string> := ["GET", "POST", "PUT", "DELETE", "PATCH", "OPTIONS", "HEAD"]

  const DefaultUrl: string := "https://jsonplaceholder.typicode.com/todos/1"

  /** One key/value row of the header editor. */
  datatype HeaderRow = HeaderRow(key: string, value: string)

  const BlankRow: HeaderRow := HeaderRow("", "")

  /**
   * The `initialValues` prop: `{}` when the page has nothing to replay, or the four values a
   * replay produces. `url` is whatever the history record holds.
   */
  datatype InitialValues =
    | NoValues
    | Values(url: Value, httpMethod: string, body: string, headers: seq<HeaderRow>)

  /** The form's state: the URL input, the selected method, the body text and the header rows. */
  datatype FormState = FormState(url: Value, httpMethod: string, body: string, headers: seq<HeaderRow>)

  /** What `onSend` receives; `body` is `undefined` for GET and HEAD. */
  datatype Submission = Submission(url: Value, httpMethod: string, body: Value, headers: Value)

  predicate IsBodyless(httpMethod: string) {
    httpMethod == "GET" || httpMethod == "HEAD"
  }

  /**
   * The `useState` initial values: each field takes its initial value unless that is
   * missing or falsy. An array of header rows is never falsy, even when empty.
   */
  function StartingValues(iv: InitialValues): (st: FormState)
    ensures iv.NoValues? ==> st == FormState(Str(DefaultUrl), "GET", "", [BlankRow])
    ensures iv.Values? ==> st.url == (if Truthy(iv.url) then iv.url else Str(DefaultUrl))
    ensures iv.Values? ==> st.httpMethod == (if iv.httpMethod == "" then "GET" else iv.httpMethod)
    ensures iv.Values? ==> st.body == iv.body && st.headers == iv.headers
    ensures Truthy(st.url) && st.httpMethod != ""
  {
    match iv
    case NoValues => FormState(Str(DefaultUrl), "GET", "", [BlankRow])
    case Values(url, m, body, headers) =>
      FormState(if Truthy(url) then url else Str(DefaultUrl), if m == "" then "GET" else m, body, headers)
  }

  /**
   * The function passed as a second `useState` initialiser runs once, on mount: for GET and
   * HEAD it empties the body. Later method changes do not run it again.
   */
  function ClearBodyOnMount(st: FormState): (st': FormState)
    ensures IsBodyless(st.httpMethod) ==> st' == st.(body := "")
    ensures !IsBodyless(st.httpMethod) ==> st' == st
  {
    if IsBodyless(st.httpMethod) && st.body != "" then st.(body := "") else st
  }

  /** The state the form mounts with. */
  function Init(iv: InitialValues): FormState {
    ClearBodyOnMount(StartingValues(iv))
  }

  /** Picking a method in the selector; the body is left as it is. */
  function SetMethod(st: FormState, httpMethod: string): (st': FormState)
    ensures st'.httpMethod == httpMethod
    ensures st'.url == st.url && st'.body == st.body && st'.headers == st.headers
  {
    st.(httpMethod := httpMethod)
  }

  /**
   * Because the clearing runs only on mount, switching from POST to GET and back keeps the
   * body that was typed.
   */
  lemma MethodSwitchKeepsBody(iv: InitialValues, body: string)
    requires iv.Values? && iv.httpMethod == "POST"
    ensures var typed := Init(iv).(body := body);
            SetMethod(SetMethod(typed, "GET"), "POST").body == body
  {
  }

  /** Picking the methods `choices` one after another. */
  function SetMethods(st: FormState, choices: seq<string>): FormState
    decreases |choices|
  {
    if |choices| == 0 then st else SetMethods(SetMethod(st, choices[0]), choices[1..])
  }

  /**
   * Any run of method choices, bodyless ones included, ends on the last method chosen and
   * leaves the body, URL and headers as they were.
   */
  lemma {:induction false} MethodSwitchesKeepBody(st: FormState, choices: seq<string>)
    ensures SetMethods(st, choices).body == st.body
    ensures SetMethods(st, choices).url == st.url && SetMethods(st, choices).headers == st.headers
    ensures SetMethods(st, choices).httpMethod == if |choices| == 0 then st.httpMethod else choices[|choices| - 1]
    decreases |choices|
  {
    if |choices| > 0 {
      MethodSwitchesKeepBody(SetMethod(st, choices[0]), choices[1..]);
    }
  }

  /** "+ Add Header": one blank row at the end. */
  function AddHeaderRow(rows: seq<HeaderRow>): (out: seq<HeaderRow>)
    ensures |out| == |rows| + 1
    ensures out[..|rows|] == rows
    ensures out[|rows|] == BlankRow
  {
    rows + [BlankRow]
  }

  /** The "×" button of row `index`: the rows whose position differs from `index`. */
  function RemoveHeaderRow(rows: seq<HeaderRow>, index: int): (out: seq<HeaderRow>)
    ensures 0 <= index < |rows| ==> |out| == |rows| - 1
    ensures !(0 <= index < |rows|) ==> out == rows
    ensures forall i :: 0 <= i < |out| ==> out[i] == rows[if 0 <= index <= i then i + 1 else i]
    decreases |rows|
  {
    if |rows| == 0 then []
    else
      var front := RemoveHeaderRow(rows[..|rows| - 1], index);
      if index == |rows| - 1 then front else front + [rows[|rows| - 1]]
  }

  /** Which input of a header row an edit applies to. */
  datatype RowField = KeyField | ValueField

  /** Typing into the key or value input of row `index`: that one field of that row changes. */
  function SetHeaderField(rows: seq<HeaderRow>, index: nat, field: RowField, text: string): (out: seq<HeaderRow>)
    requires index < |rows|
    ensures |out| == |rows|
    ensures forall i :: 0 <= i < |rows| && i != index ==> out[i] == rows[i]
    ensures field.KeyField? ==> out[index] == rows[index].(key := text)
    ensures field.ValueField? ==> out[index] == rows[index].(value := text)
  {
    rows[index := if field.KeyField? then rows[index].(key := text) else rows[index].(value := text)]
  }

  /**
   * The remove button of a row is disabled while sending, and when the row is the only one
   * and is blank.
   */
  predicate RemoveDisabled(rows: seq<HeaderRow>, index: nat, isLoading: bool)
    requires index < |rows|
  {
    isLoading || (|rows| == 1 && rows[index] == BlankRow)
  }

  /** The body editor is shown for every method except GET, HEAD and OPTIONS. */
  predicate ShowsBodyEditor(httpMethod: string) {
    httpMethod != "GET" && httpMethod != "HEAD" && httpMethod != "OPTIONS"
  }

  /**
   * The only row can be removed when it is not blank; the form then has no rows at all, and
   * submits an empty header map.
   */
  lemma RemoveOnlyRow(row: HeaderRow)
    requires row != BlankRow
    ensures !RemoveDisabled([row], 0, false)
    ensures RemoveHeaderRow([row], 0) == []
  {
  }

  /**
   * OPTIONS hides the body editor, yet a body left over from another method is still sent.
   */
  lemma OptionsSendsHiddenBody(body: string, codec: JsonCodec)
    requires body != "" && !LooksLikeJson(body)
    ensures !ShowsBodyEditor("OPTIONS")
    ensures SubmittedBody("OPTIONS", body, codec) == Str(body)
  {
  }

  // ---------------------------------------------------------------------------
  // The header map
  // ---------------------------------------------------------------------------

  /**
   * `headers.reduce((acc, h) => { if (h.key) acc[h.key] = h.value; return acc }, {})`,
   * as the property list of the resulting object.
   */
  function HeaderProps(rows: seq<HeaderRow>): (props: seq<Prop>)
    ensures Lookup(props, "") == Undefined
    ensures forall k :: Lookup(props, k).Undefined? || Lookup(props, k).Str?
  {
    if |rows| == 0 then []
    else
      var acc := HeaderProps(rows[..|rows| - 1]);
      var last := rows[|rows| - 1];
      if last.key != "" then Assign(acc, last.key, Str(last.value)) else acc
  }

  /** The value of the last row whose key is `key`, if any. */
  function LastValue(rows: seq<HeaderRow>, key: string): (v: Option<string>)
    ensures v.None? <==> forall i :: 0 <= i < |rows| ==> rows[i].key != key
  {
    if |rows| == 0 then None
    else if rows[|rows| - 1].key == key then Some(rows[|rows| - 1].value)
    else LastValue(rows[..|rows| - 1], key)
  }

  /**
   * Reading header `key` from the map gives the value of the last row with that key; a key
   * that no row carries, and the empty key, are absent.
   */
  lemma {:induction false} HeaderMapLastWins(rows: seq<HeaderRow>, key: string)
    ensures key == "" || LastValue(rows, key).None? ==> Lookup(HeaderProps(rows), key) == Undefined
    ensures key != "" && LastValue(rows, key).Some? ==>
              Lookup(HeaderProps(rows), key) == Str(LastValue(rows, key).value)
  {
    if |rows| > 0 {
      HeaderMapLastWins(rows[..|rows| - 1], key);
    }
  }

  /** The header map is a well-formed object: distinct, non-empty keys with string values. */
  lemma {:induction false} HeaderMapWellFormed(rows: seq<HeaderRow>)
    ensures DistinctKeys(HeaderProps(rows))
    ensures forall p :: p in HeaderProps(rows) ==> p.key != "" && p.val.Str?
  {
    if |rows| > 0 {
      var last := rows[|rows| - 1];
      HeaderMapWellFormed(rows[..|rows| - 1]);
      if last.key != "" {
        AssignKeepsDistinct(HeaderProps(rows[..|rows| - 1]), last.key, Str(last.value));
      }
    }
  }

  /** Rows with an empty key contribute nothing to the header map. */
  lemma {:induction false} BlankKeysIgnored(rows: seq<HeaderRow>, value: string)
    ensures HeaderProps(rows + [HeaderRow("", value)]) == HeaderProps(rows)
  {
    assert (rows + [HeaderRow("", value)])[..|rows|] == rows;
  }

  // ---------------------------------------------------------------------------
  // Submitting
  // ---------------------------------------------------------------------------

  /** The trimmed body starts and ends with braces or with brackets. */
  predicate LooksLikeJson(body: string) {
    var t := Trim(body);
    (StartsWith(t, "{") && EndsWith(t, "}")) || (StartsWith(t, "[") && EndsWith(t, "]"))
  }

  /**
   * The body sent: `undefined` for GET and HEAD; for other methods a non-empty body that
   * looks like JSON is parsed, falling back to the raw text when parsing throws, and every
   * other body is sent as text.
   */
  function SubmittedBody(httpMethod: string, body: string, codec: JsonCodec): (v: Value)
    ensures IsBodyless(httpMethod) ==> v == Undefined
    ensures !IsBodyless(httpMethod) && (body == "" || !LooksLikeJson(body)) ==> v == Str(body)
    ensures !IsBodyless(httpMethod) && body != "" && LooksLikeJson(body) ==>
              v == (match codec.parse(body) case Some(parsed) => parsed case None => Str(body))
  {
    if !IsBodyless(httpMethod) && body != "" then
      if LooksLikeJson(body) then
        match codec.parse(body)
        case Some(parsed) => parsed
        case None => Str(body)
      else Str(body)
    else if IsBodyless(httpMethod) then Undefined
    else Str(body)
  }

  /** "Send": nothing when the URL is empty, otherwise the details handed to `onSend`. */
  function Submit(st: FormState, codec: JsonCodec): (sent: Option<Submission>)
    ensures sent.None? <==> !Truthy(st.url)
    ensures sent.Some? ==> sent.value.url == st.url && sent.value.httpMethod == st.httpMethod
    ensures sent.Some? ==> sent.value.headers == Obj(HeaderProps(st.headers))
    ensures sent.Some? ==> sent.value.body == SubmittedBody(st.httpMethod, st.body, codec)
    ensures sent.Some? && IsBodyless(st.httpMethod) ==> sent.value.body.Undefined?
  {
    if !Truthy(st.url) then None
    else Some(Submission(st.url, st.httpMethod, SubmittedBody(st.httpMethod, st.body, codec),
                             Obj(HeaderProps(st.headers))))
  }

  /**
   * The object `JSON.stringify` encodes for the relay: `url`, `method`, `body` and `headers`,
   * with the `body` property dropped when it is `undefined`.
   */
  function WireObject(d: Submission): (v: Value)
    ensures v.Obj?
    ensures Field(v, "url") == d.url && Field(v, "method") == Str(d.httpMethod)
    ensures Field(v, "body") == d.body && Field(v, "headers") == d.headers
    ensures "body" in KeysOf(v.props) <==> !d.body.Undefined?
  {
    var props := [Prop("url", d.url), Prop("method", Str(d.httpMethod))];
    var withBody := if d.body.Undefined? then props else props + [Prop("body", d.body)];
    var all := withBody + [Prop("headers", d.headers)];
    LookupFirst(all, 0);
    LookupFirst(all, 1);
    LookupFirst(all, |all| - 1);
    if d.body.Undefined? then
      assert "body" !in KeysOf(all);
      Obj(all)
    else
      LookupFirst(all, 2);
      Obj(all)
  }
}

=== FILE: request_history_entity.dfy ===
/**
 * The `RequestHistory` entity: one row of the `request_history` table, its
 * positional constructor, and the column schema the ORM maps it to.
 */
module RequestHistoryEntity {
  import opened Common
  import opened JsValue

  /**
   * A history row. `id` is `None` until the store assigns it on insert; every other field
   * holds whatever JavaScript value the constructor was given (`httpMethod`, the `method` column, is always a string,
   * because the relay only ever passes one).
   */
  datatype Record = Record(
    id: Option<nat>,
    httpMethod: string,
    url: Value,
    requestHeaders: Value,
    requestBody: Value,
    responseStatus: Value,
    responseHeaders: Value,
    responseBody: Value,
    createdAt: nat)

  /**
   * `new RequestHistory(method, url, requestHeaders, requestBody, responseStatus,
   * responseHeaders, responseBody)`. The constructor takes no id and no timestamp:
   * `now` is the wall-clock reading at construction time, which the model makes explicit.
   */
  function NewRecord(httpMethod: string, url: Value, requestHeaders: Value, requestBody: Value,
                     responseStatus: Value, responseHeaders: Value, responseBody: Value,
                     now: nat): (r: Record)
    ensures r.id.None?
    ensures r.createdAt == now
    ensures PositionalFields(r) == [Str(httpMethod), url, requestHeaders, requestBody,
                                    responseStatus, responseHeaders, responseBody]
  {
    Record(None, httpMethod, url, requestHeaders, requestBody,
           responseStatus, responseHeaders, responseBody, now)
  }

  /** The seven fields the constructor fills, in the order of its parameters. */
  function PositionalFields(r: Record): seq<Value> {
    [Str(r.httpMethod), r.url, r.requestHeaders, r.requestBody,
     r.responseStatus, r.responseHeaders, r.responseBody]
  }

  // ---------------------------------------------------------------------------
  // Column schema
  // ---------------------------------------------------------------------------

  datatype ColumnType = NumberColumn | StringColumn | JsonColumn | TextColumn | DateColumn

  /** The properties of the entity, one per column. */
  datatype ColumnName =
    | Id | Method | Url | RequestHeaders | RequestBody
    | ResponseStatus | ResponseHeaders | ResponseBody | CreatedAt

  datatype Column = Column(
    name: ColumnName,
    kind: ColumnType,
    nullable: bool,
    primary: bool,
    autoincrement: bool,
    maxLength: Option<nat>)

  const MaxUrlLength: nat := 2048

  const Schema: seq<Column> := [
    Column(Id, NumberColumn, false, true, true, None),
    Column(Method, StringColumn, false, false, false, None),
    Column(Url, StringColumn, false, false, false, Some(MaxUrlLength)),
    Column(RequestHeaders, JsonColumn, true, false, false, None),
    Column(RequestBody, TextColumn, true, false, false, None),
    Column(ResponseStatus, NumberColumn, true, false, false, None),
    Column(ResponseHeaders, JsonColumn, true, false, false, None),
    Column(ResponseBody, TextColumn, true, false, false, None),
    Column(CreatedAt, DateColumn, false, false, false, None)
  ]

  /** The value a record holds in a column (`null` for an id not yet assigned). */
  function ColumnValue(r: Record, f: ColumnName): Value {
    match f
    case Id => if r.id.Some? then Num(r.id.value) else Null
    case Method => Str(r.httpMethod)
    case Url => r.url
    case RequestHeaders => r.requestHeaders
    case RequestBody => r.requestBody
    case ResponseStatus => r.responseStatus
    case ResponseHeaders => r.responseHeaders
    case ResponseBody => r.responseBody
    case CreatedAt => Num(r.createdAt)
  }

  predicate IsNullish(v: Value) {
    v.Null? || v.Undefined?
  }

  /**
   * A record the store can insert: its id is left to the auto-increment key, and every
   * other non-nullable column holds a value.
   */
  predicate Insertable(r: Record) {
    && r.id.None?
    && forall c :: c in Schema && !c.nullable && !c.autoincrement ==> !IsNullish(ColumnValue(r, c.name))
  }

  /** The non-nullable columns are exactly the key, `method`, `url` and `createdAt`. */
  lemma NonNullableColumns(c: Column)
    requires c in Schema
    ensures !c.nullable <==> c.name in {Id, Method, Url, CreatedAt}
  {
  }

  /** A freshly constructed record is insertable exactly when its url is neither null nor undefined. */
  lemma NewRecordInsertable(httpMethod: string, url: Value, requestHeaders: Value, requestBody: Value,
                            responseStatus: Value, responseHeaders: Value, responseBody: Value,
                            now: nat)
    ensures Insertable(NewRecord(httpMethod, url, requestHeaders, requestBody,
                                 responseStatus, responseHeaders, responseBody, now))
            <==> !IsNullish(url)
  {
    var r := NewRecord(httpMethod, url, requestHeaders, requestBody,
                       responseStatus, responseHeaders, responseBody, now);
    assert Schema[2] in Schema && ColumnValue(r, Schema[2].name) == url;
  }
}

=== FILE: send_request_route.dfy ===
/**
 * The relay endpoint `POST /api/send-request`: normalise the caller's request, forward it
 * to the external server, record the outcome in the history table, and answer the caller.
 *
 * The handler is a pure function of the EntityManager acquisition, the parsed request body,
 * what happened on the wire, and the results of the history saves; it returns the reply,
 * the outbound request (if one was made) and the records it tried to save, in order.
 */
module SendRequestRoute {
  import opened Common
  import opened JsText
  import opened JsValue
  import opened RequestHistoryEntity
  import opened HistoryStore
  import opened Db

  /** A response of the external server as axios presents it. */
  datatype Response = Response(status: int, statusText: Value, headers: Value, data: Value)

  /** What happened when the outbound request was attempted. */
  datatype TransportOutcome =
    | Answered(response: Response)  // the server answered, with any status code
    | NoAnswer(message: string)     // the request went out and nothing came back
    | NotSent(message: string)      // the request could not be issued

  /** An error caught by the handler's main `catch` block. */
  datatype Thrown =
    | AxiosError(message: string, response: Option<Response>, requestSent: bool)
    | PlainError(message: string)

  /** The settled `axios(options)` promise. */
  datatype AxiosCall = Resolved(response: Response) | Rejected(error: Thrown)

  /** `validateStatus` of the outbound options. */
  predicate AcceptedStatus(status: int) {
    100 <= status < 600
  }

  /** `axios(options)`: a response resolves when `validateStatus` accepts its status, and rejects otherwise. */
  function Axios(outcome: TransportOutcome): (call: AxiosCall)
    ensures call.Resolved? <==> outcome.Answered? && AcceptedStatus(outcome.response.status)
    ensures call.Resolved? ==> call.response == outcome.response
    ensures call.Rejected? ==> call.error.AxiosError? && call.error.requestSent == !outcome.NotSent?
    ensures call.Rejected? ==> (call.error.response.Some? <==> outcome.Answered?)
    ensures call.Rejected? && outcome.Answered? ==> call.error.response == Some(outcome.response)
  {
    match outcome
    case Answered(resp) =>
      if AcceptedStatus(resp.status) then Resolved(resp)
      else Rejected(AxiosError("Request failed with status code " + IntToString(resp.status), Some(resp), true))
    case NoAnswer(m) => Rejected(AxiosError(m, None, true))
    case NotSent(m) => Rejected(AxiosError(m, None, false))
  }

  /** The body of the incoming request, as `request.json()` delivers it. */
  datatype IncomingBody = Parsed(json: Value) | Unparseable(message: string)

  /** `requestDetailsForDb`: the normalised request, in the form it is stored. */
  datatype RequestDetails = RequestDetails(url: Value, httpMethod: string, requestBody: Value, requestHeaders: Value)

  /** The outbound request handed to axios. */
  datatype Outbound = Outbound(httpMethod: string, url: Value, headers: Value, data: Value)

  /** The normalised request and the original body, or the error building it threw. */
  datatype Normalization = Normalized(details: RequestDetails, data: Value) | NormalizeFailed(error: Thrown)

  const DestructureError: string := "Cannot destructure property 'url' of 'rawBody' as it is null."

  const LowerCaseError: string := "method.toLowerCase is not a function"

  /**
   * Destructure `{url, method, body, headers}` from the parsed body and build
   * `requestDetailsForDb`: the method lower-cased (default `get`), an object body serialised
   * for storage, headers defaulting to `{}`. The outbound data stays the original body.
   */
  function Normalize(raw: Value, codec: JsonCodec): (n: Normalization)
    ensures n.NormalizeFailed? <==>
              raw.Null? || raw.Undefined? || (Truthy(Field(raw, "method")) && !Field(raw, "method").Str?)
    ensures n.Normalized? ==>
              var m := Field(raw, "method");
              && n.details.url == Field(raw, "url")
              && n.details.httpMethod == (if Truthy(m) then ToLower(m.s) else "get")
              && n.data == Field(raw, "body")
              && n.details.requestHeaders == (if Truthy(Field(raw, "headers")) then Field(raw, "headers") else Obj([]))
              && Truthy(n.details.requestHeaders)
    ensures n.Normalized? ==>
              (IsStructured(n.data) ==> n.details.requestBody == Str(codec.stringify(n.data)))
              && (!IsStructured(n.data) ==> n.details.requestBody == n.data)
  {
    if raw.Null? || raw.Undefined? then NormalizeFailed(PlainError(DestructureError))
    else
      var url := Field(raw, "url");
      var m := Field(raw, "method");
      var body := Field(raw, "body");
      var headers := Field(raw, "headers");
      if Truthy(m) && !m.Str? then NormalizeFailed(PlainError(LowerCaseError))
      else
        var httpMethod := if Truthy(m) then ToLower(m.s) else "get";
        var stored := if IsStructured(body) then Str(codec.stringify(body)) else body;
        Normalized(RequestDetails(url, httpMethod, stored, Or(headers, Obj([]))), body)
  }

  /** The serialised form of a body for a TEXT column: objects and arrays become JSON text. */
  function StoredBody(v: Value, codec: JsonCodec): Value {
    if IsStructured(v) then Str(codec.stringify(v)) else v
  }

  /** The history record of an answered request. */
  function SuccessRecord(d: RequestDetails, resp: Response, codec: JsonCodec, now: nat): (r: Record)
    ensures r.responseStatus == Num(resp.status)
    ensures r.responseHeaders == resp.headers
    ensures IsStructured(resp.data) ==> r.responseBody == Str(codec.stringify(resp.data))
    ensures !IsStructured(resp.data) ==> r.responseBody == resp.data
  {
    NewRecord(d.httpMethod, d.url, d.requestHeaders, d.requestBody,
              Num(resp.status), resp.headers, StoredBody(resp.data, codec), now)
  }

  function ObjectOf2(k1: string, v1: Value, k2: string, v2: Value): Value {
    Obj([Prop(k1, v1), Prop(k2, v2)])
  }

  const NoHeadersDetail: Value := Obj([Prop("error_detail", Str("No headers available on error"))])

  function ErrorDetail(message: string): Value {
    Obj([Prop("error_detail", Str("Error during request: " + message))])
  }

  /** The response an error carries, when it is an axios error with one. */
  function RemoteResponse(e: Thrown): Option<Response> {
    if e.AxiosError? then e.response else None
  }

  /**
   * The history record of a failed request: the remote status, headers and data where the
   * error carries them (and they are truthy), otherwise `0` and synthetic `error_detail` objects.
   */
  function ErrorRecord(d: RequestDetails, e: Thrown, codec: JsonCodec, now: nat): (r: Record)
    ensures var resp := RemoteResponse(e);
            && (resp.Some? && resp.value.status != 0 ==> r.responseStatus == Num(resp.value.status))
            && (resp.None? || resp.value.status == 0 ==> r.responseStatus == Num(0))
    ensures var resp := RemoteResponse(e);
            && (resp.Some? && Truthy(resp.value.headers) ==> r.responseHeaders == resp.value.headers)
            && (resp.None? || !Truthy(resp.value.headers) ==> r.responseHeaders == NoHeadersDetail)
    ensures var resp := RemoteResponse(e);
            && (resp.Some? && IsStructured(resp.value.data) ==> r.responseBody == Str(codec.stringify(resp.value.data)))
            && (resp.Some? && Truthy(resp.value.data) && !IsObjectType(resp.value.data) ==> r.responseBody == resp.value.data)
            && (resp.None? || !Truthy(resp.value.data) ==> r.responseBody == Str(codec.stringify(ErrorDetail(e.message))))
  {
    var resp := RemoteResponse(e);
    var data := if resp.Some? && Truthy(resp.value.data) then resp.value.data else ErrorDetail(e.message);
    var status := if resp.Some? && resp.value.status != 0 then Num(resp.value.status) else Num(0);
    var headers := if resp.Some? && Truthy(resp.value.headers) then resp.value.headers else NoHeadersDetail;
    var body := if IsObjectType(data) then Str(codec.stringify(data)) else data;
    NewRecord(d.httpMethod, d.url, d.requestHeaders, d.requestBody, status, headers, body, now)
  }

  /** A reply of the endpoint: an HTTP status and the JSON body. */
  datatype Reply = Reply(status: int, body: Value)

  const NoResponseDetails: string := "The target server did not respond."

  /** The `error` field of a reply body. */
  function ErrorOf(reply: Reply): Value {
    Field(reply.body, "error")
  }

  /**
   * The reply of the `catch` block: the remote status and data for an axios error with a
   * response, 500 "No response from external API" for one whose request went unanswered,
   * 500 "Internal Server Error" with the message otherwise.
   */
  function CatchReply(e: Thrown): (reply: Reply)
    ensures RemoteResponse(e).Some? ==>
              && reply.status == RemoteResponse(e).value.status
              && ErrorOf(reply) == Str("External API Error")
              && Field(reply.body, "data") == RemoteResponse(e).value.data
    ensures e.AxiosError? && e.response.None? && e.requestSent ==>
              reply == Reply(500, ObjectOf2("error", Str("No response from external API"), "details", Str(NoResponseDetails)))
    ensures (e.PlainError? || (e.response.None? && !e.requestSent)) ==>
              reply == Reply(500, ObjectOf2("error", Str("Internal Server Error"), "details", Str(e.message)))
  {
    if e.AxiosError? && e.response.Some? then
      var r := e.response.value;
      var props := [Prop("error", Str("External API Error")), Prop("status", Num(r.status)),
                    Prop("statusText", r.statusText), Prop("headers", r.headers), Prop("data", r.data)];
      LookupFirst(props, 4);
      Reply(r.status, Obj(props))
    else if e.AxiosError? && e.requestSent then
      Reply(500, ObjectOf2("error", Str("No response from external API"), "details", Str(NoResponseDetails)))
    else
      Reply(500, ObjectOf2("error", Str("Internal Server Error"), "details", Str(e.message)))
  }

  /** The 200 reply mirroring an answered request. */
  function SuccessReply(resp: Response): Reply {
    Reply(200, Obj([Prop("status", Num(resp.status)), Prop("statusText", resp.statusText),
                    Prop("headers", resp.headers), Prop("data", resp.data)]))
  }

  const UrlRequiredReply: Reply := Reply(400, Obj([Prop("error", Str("URL is required"))]))

  function StoreUnavailableReply(message: string): Reply {
    Reply(503, ObjectOf2("error", Str("Database service unavailable"), "details", Str(message)))
  }

  /** What one call of the handler did. */
  datatype Outcome = Outcome(reply: Reply, outbound: Option<Outbound>, writes: seq<Record>)

  /**
   * `POST(request)`. `em` is the result of `getEM()`, `body` that of `request.json()`,
   * `transport` what happened on the wire, `saves` the results of the history saves in
   * order (missing entries succeed), and `now` the clock reading when records are built.
   */
  function Post(em: Result<EntityManager>, body: IncomingBody, transport: TransportOutcome,
                saves: seq<SaveResult>, codec: JsonCodec, now: nat): (out: Outcome)
    ensures |out.writes| <= 2
    ensures out.writes != [] ==> out.outbound.Some?
    ensures em.Err? ==> out == Outcome(StoreUnavailableReply(em.message), None, [])
    ensures body.Unparseable? && em.Ok? ==> out == Outcome(CatchReply(PlainError(body.message)), None, [])
  {
    match em
    case Err(m) => Outcome(StoreUnavailableReply(m), None, [])
    case Ok(_) =>
      match body
      case Unparseable(m) => Outcome(CatchReply(PlainError(m)), None, [])
      case Parsed(raw) =>
        match Normalize(raw, codec)
        case NormalizeFailed(e) => Outcome(CatchReply(e), None, [])
        case Normalized(d, data) =>
          if !Truthy(d.url) then Outcome(UrlRequiredReply, None, [])
          else
            var outbound := Outbound(d.httpMethod, d.url, d.requestHeaders, data);
            match Axios(transport)
            case Resolved(resp) =>
              var entry := SuccessRecord(d, resp, codec, now);
              (match SaveAt(saves, 0)
               case Saved => Outcome(SuccessReply(resp), Some(outbound), [entry])
               case SaveFailed(m) =>
                 var e := PlainError(m);
                 Outcome(CatchReply(e), Some(outbound), [entry, ErrorRecord(d, e, codec, now)]))
            case Rejected(e) => Outcome(CatchReply(e), Some(outbound), [ErrorRecord(d, e, codec, now)])
  }

  // ---------------------------------------------------------------------------
  // Properties of the handler
  // ---------------------------------------------------------------------------

  /** The handler got past acquisition, parsing, normalisation and the URL check. */
  predicate ReachesOutboundCall(em: Result<EntityManager>, body: IncomingBody, codec: JsonCodec) {
    && em.Ok?
    && body.Parsed?
    && Normalize(body.json, codec).Normalized?
    && Truthy(Normalize(body.json, codec).details.url)
  }

  /**
   * A falsy `url` is answered 400 "URL is required", with no outbound call and no history
   * write. This covers every body that can be destructured, including a string, a number or
   * an array, whose `url` is `undefined`.
   */
  lemma UrlRequired(em: Result<EntityManager>, raw: Value, transport: TransportOutcome,
                    saves: seq<SaveResult>, codec: JsonCodec, now: nat)
    requires em.Ok? && !raw.Null? && !raw.Undefined?
    requires !Truthy(Field(raw, "method")) || Field(raw, "method").Str?
    requires !Truthy(Field(raw, "url"))
    ensures Post(em, Parsed(raw), transport, saves, codec, now) == Outcome(UrlRequiredReply, None, [])
  {
  }

  /**
   * The normalised method, url and headers are what goes out and what is stored, and the
   * outbound data is the caller's original body.
   */
  lemma OutboundMatchesRecords(em: Result<EntityManager>, body: IncomingBody, transport: TransportOutcome,
                               saves: seq<SaveResult>, codec: JsonCodec, now: nat)
    requires ReachesOutboundCall(em, body, codec)
    ensures var out := Post(em, body, transport, saves, codec, now);
            var n := Normalize(body.json, codec);
            && out.outbound == Some(Outbound(n.details.httpMethod, n.details.url, n.details.requestHeaders, Field(body.json, "body")))
            && |out.writes| >= 1
            && forall r :: r in out.writes ==>
                 && r.httpMethod == n.details.httpMethod
                 && r.url == n.details.url
                 && r.requestHeaders == n.details.requestHeaders
                 && r.requestBody == StoredBody(Field(body.json, "body"), codec)
  {
  }

  /**
   * Every status from 100 to 599 is a success when the record's save succeeds: the reply is
   * 200 with the remote status, text, headers and original data, and the one record stores the
   * status and the serialised data.
   */
  lemma AcceptedStatusIsSuccess(em: Result<EntityManager>, body: IncomingBody, resp: Response,
                                saves: seq<SaveResult>, codec: JsonCodec, now: nat)
    requires ReachesOutboundCall(em, body, codec)
    requires AcceptedStatus(resp.status)
    requires SaveAt(saves, 0).Saved?
    ensures var out := Post(em, body, Answered(resp), saves, codec, now);
            && out.reply == SuccessReply(resp)
            && |out.writes| == 1
            && out.writes[0].responseStatus == Num(resp.status)
            && out.writes[0].responseHeaders == resp.headers
            && out.writes[0].responseBody == StoredBody(resp.data, codec)
  {
  }

  /** A failed outbound call writes exactly one error record and answers with the `catch` reply. */
  lemma TransportFailureRecordsError(em: Result<EntityManager>, body: IncomingBody, transport: TransportOutcome,
                                     saves: seq<SaveResult>, codec: JsonCodec, now: nat)
    requires ReachesOutboundCall(em, body, codec)
    requires Axios(transport).Rejected?
    ensures var out := Post(em, body, transport, saves, codec, now);
            var e := Axios(transport).error;
            && out.reply == CatchReply(e)
            && out.writes == [ErrorRecord(Normalize(body.json, codec).details, e, codec, now)]
  {
  }

  /** Unanswered requests are 500 "No response from external API"; unsent ones 500 "Internal Server Error". */
  lemma ErrorReplyClassification(em: Result<EntityManager>, body: IncomingBody, transport: TransportOutcome,
                                 saves: seq<SaveResult>, codec: JsonCodec, now: nat)
    requires ReachesOutboundCall(em, body, codec)
    ensures var reply := Post(em, body, transport, saves, codec, now).reply;
            && (transport.NoAnswer? ==> reply.status == 500 && ErrorOf(reply) == Str("No response from external API"))
            && (transport.NotSent? ==> reply.status == 500 && ErrorOf(reply) == Str("Internal Server Error")
                                       && Field(reply.body, "details") == Str(transport.message))
            && (transport.Answered? && !AcceptedStatus(transport.response.status) ==>
                  reply.status == transport.response.status && ErrorOf(reply) == Str("External API Error"))
  {
    var reply := Post(em, body, transport, saves, codec, now).reply;
    if transport.NoAnswer? || transport.NotSent? {
      LookupFirst(reply.body.props, 0);
      LookupFirst(reply.body.props, 1);
    }
  }

  /**
   * An "External API Error" reply only ever carries a status outside 100..599: axios rejects
   * with a response only for statuses `validateStatus` refuses.
   */
  lemma ExternalErrorOnlyForRefusedStatus(em: Result<EntityManager>, body: IncomingBody, transport: TransportOutcome,
                                          saves: seq<SaveResult>, codec: JsonCodec, now: nat)
    requires ErrorOf(Post(em, body, transport, saves, codec, now).reply) == Str("External API Error")
    ensures !AcceptedStatus(Post(em, body, transport, saves, codec, now).reply.status)
  {
  }

  // ---------------------------------------------------------------------------
  // What reaches the caller
  // ---------------------------------------------------------------------------

  /** What the caller receives: the JSON reply, or the framework's bare 500 without a JSON body. */
  datatype Delivery = JsonReply(reply: Reply) | BareServerError

  /** The statuses a `Response` can be constructed with (Fetch Standard, "initialize a response"). */
  predicate ResponseStatusAllowed(status: int) {
    200 <= status <= 599
  }

  /**
   * `return NextResponse.json(body, { status })`: building the `Response` throws a RangeError
   * for a status it does not allow; the handler then fails and Next.js answers a bare 500.
   */
  function Deliver(reply: Reply): (d: Delivery)
    ensures d.JsonReply? <==> ResponseStatusAllowed(reply.status)
    ensures d.JsonReply? ==> d.reply == reply
  {
    if ResponseStatusAllowed(reply.status) then JsonReply(reply) else BareServerError
  }

  /**
   * The "External API Error" reply is never delivered: it carries a status `validateStatus`
   * refused, and no such status is one a `Response` allows.
   */
  lemma ExternalErrorNeverDelivered(em: Result<EntityManager>, body: IncomingBody, transport: TransportOutcome,
                                    saves: seq<SaveResult>, codec: JsonCodec, now: nat)
    requires ErrorOf(Post(em, body, transport, saves, codec, now).reply) == Str("External API Error")
    ensures Deliver(Post(em, body, transport, saves, codec, now).reply) == BareServerError
  {
    ExternalErrorOnlyForRefusedStatus(em, body, transport, saves, codec, now);
  }

  /** Every other reply the handler builds has a status in 200..599 and reaches the caller as built. */
  lemma OtherRepliesDelivered(em: Result<EntityManager>, body: IncomingBody, transport: TransportOutcome,
                              saves: seq<SaveResult>, codec: JsonCodec, now: nat)
    requires ErrorOf(Post(em, body, transport, saves, codec, now).reply) != Str("External API Error")
    ensures Deliver(Post(em, body, transport, saves, codec, now).reply) ==
            JsonReply(Post(em, body, transport, saves, codec, now).reply)
  {
  }

  /**
   * The number of history writes: none before the outbound call; one after it, except that
   * a failed save of the success record falls into the `catch` block, which answers 500
   * "Internal Server Error" and attempts a second, error record.
   */
  lemma WriteCount(em: Result<EntityManager>, body: IncomingBody, transport: TransportOutcome,
                   saves: seq<SaveResult>, codec: JsonCodec, now: nat)
    ensures var out := Post(em, body, transport, saves, codec, now);
            && (|out.writes| == 0 <==> !ReachesOutboundCall(em, body, codec))
            && (|out.writes| == 2 <==>
                  ReachesOutboundCall(em, body, codec) && Axios(transport).Resolved? && SaveAt(saves, 0).SaveFailed?)
            && (|out.writes| == 2 ==>
                  out.reply == CatchReply(PlainError(SaveAt(saves, 0).message)) && out.reply.status == 500)
  {
  }

  /**
   * Only the first save result matters, and only on the success path: the outcome of saving
   * the error record never changes the reply or what was attempted.
   */
  lemma ErrorSaveIsBestEffort(em: Result<EntityManager>, body: IncomingBody, transport: TransportOutcome,
                              saves: seq<SaveResult>, saves': seq<SaveResult>, codec: JsonCodec, now: nat)
    requires SaveAt(saves, 0) == SaveAt(saves', 0) || Axios(transport).Rejected?
    ensures Post(em, body, transport, saves, codec, now) == Post(em, body, transport, saves', codec, now)
  {
  }

  /** Every record the handler builds can be inserted and carries the request's timestamp. */
  lemma WritesAreInsertable(em: Result<EntityManager>, body: IncomingBody, transport: TransportOutcome,
                            saves: seq<SaveResult>, codec: JsonCodec, now: nat)
    ensures forall r :: r in Post(em, body, transport, saves, codec, now).writes ==>
              Insertable(r) && r.createdAt == now
  {
    var out := Post(em, body, transport, saves, codec, now);
    if ReachesOutboundCall(em, body, codec) {
      var d := Normalize(body.json, codec).details;
      assert !IsNullish(d.url);
      forall r | r in out.writes
        ensures Insertable(r) && r.createdAt == now
      {
        NewRecordInsertable(r.httpMethod, r.url, r.requestHeaders, r.requestBody,
                            r.responseStatus, r.responseHeaders, r.responseBody, now);
      }
    }
  }

  /** When `getEM` fails the handler answers 503 before reading the body, calling out or writing. */
  lemma StoreFailureShortCircuits(orm: OrmCall, fork: Step, body: IncomingBody,
                                  transport: TransportOutcome, saves: seq<SaveResult>, codec: JsonCodec, now: nat)
    requires GetEm(orm, fork).result.Err?
    ensures var out := Post(GetEm(orm, fork).result, body, transport, saves, codec, now);
            && out.reply.status == 503
            && ErrorOf(out.reply) == Str("Database service unavailable")
            && out.outbound.None?
            && out.writes == []
  {
  }
  /**
   * The history table after one request: nothing changes before the outbound call. After it
   * the table gains at most one row, keyed `nextId`: the success record when its save
   * succeeds; otherwise the error record, when that record's own save succeeds.
   */
  lemma TableAfterRequest(st: Store, em: Result<EntityManager>, body: IncomingBody, transport: TransportOutcome,
                          saves: seq<SaveResult>, codec: JsonCodec, now: nat)
    ensures var out := Post(em, body, transport, saves, codec, now);
            var st' := PersistAll(st, out.writes, saves);
            && (!ReachesOutboundCall(em, body, codec) ==> st' == st)
            && |st.rows| <= |st'.rows| <= |st.rows| + 1
            && (ReachesOutboundCall(em, body, codec) && Axios(transport).Resolved? && SaveAt(saves, 0).Saved? ==>
                  st'.rows == st.rows + [out.writes[0].(id := Some(st.nextId))])
            && (ReachesOutboundCall(em, body, codec) && Axios(transport).Resolved? && SaveAt(saves, 0).SaveFailed? ==>
                  st'.rows == st.rows + (if SaveAt(saves, 1).Saved? then [out.writes[1].(id := Some(st.nextId))] else []))
            && (ReachesOutboundCall(em, body, codec) && Axios(transport).Rejected? ==>
                  st'.rows == st.rows + (if SaveAt(saves, 0).Saved? then [out.writes[0].(id := Some(st.nextId))] else []))
  {
    var out := Post(em, body, transport, saves, codec, now);
    WriteCount(em, body, transport, saves, codec, now);
    if |out.writes| == 1 {
      assert out.writes == [out.writes[0]];
      SavedOfOne(out.writes[0], saves);
    } else if |out.writes| == 2 {
      assert out.writes == [out.writes[0], out.writes[1]];
      SavedOfTwoAfterFailure(out.writes[0], out.writes[1], saves);
    }
  }
}

=== FILE: url_query.dfy ===
/**
 * Reading a query parameter from a URL the way `new URL(url).searchParams.get(name)` does:
 * the query is the text after the first `?`, its pairs are separated by `&`, and a pair's
 * name runs up to its first `=`. Percent-decoding, `+` as a space and fragments are not
 * modelled; the numerals the page puts in its URLs contain none of them.
 */
module UrlQuery {
  import opened Common

  /** The position of the first `c` in `s`. */
  function IndexOf(s: string, c: char): (i: nat)
    requires c in s
    ensures i < |s| && s[i] == c
    ensures c !in s[..i]
  {
    if s[0] == c then 0
    else
      var j := IndexOf(s[1..], c);
      assert s[..j + 1] == [s[0]] + s[1..][..j];
      j + 1
  }

  /** The first `c` of `a + b` is the first of `b` when `a` has none. */
  lemma {:induction false} IndexOfAfter(a: string, b: string, c: char)
    requires c !in a && c in b
    ensures c in a + b
    ensures IndexOf(a + b, c) == |a| + IndexOf(b, c)
  {
    assert (a + b)[|a| + IndexOf(b, c)] == c;
    if |a| > 0 {
      assert (a + b)[1..] == a[1..] + b;
      IndexOfAfter(a[1..], b, c);
    }
  }

  /** `s.split(sep)`. */
  function Split(s: string, sep: char): (parts: seq<string>)
    ensures |parts| >= 1
    ensures sep !in s ==> parts == [s]
    decreases |s|
  {
    if sep !in s then [s]
    else
      var i := IndexOf(s, sep);
      [s[..i]] + Split(s[i + 1..], sep)
  }

  /** A part without the separator splits off first. */
  lemma SplitFirst(a: string, b: string, sep: char)
    requires sep !in a
    ensures Split(a + [sep] + b, sep) == [a] + Split(b, sep)
  {
    var s := a + [sep] + b;
    assert s == a + ([sep] + b);
    IndexOfAfter(a, [sep] + b, sep);
    assert IndexOf(s, sep) == |a|;
    assert s[..|a|] == a;
    assert s[|a| + 1..] == b;
  }

  /** The query string of a URL: everything after the first `?`, or nothing. */
  function Query(url: string): string {
    if '?' in url then url[IndexOf(url, '?') + 1..] else ""
  }

  /** The name of a `name=value` pair. */
  function PairName(pair: string): string {
    if '=' in pair then pair[..IndexOf(pair, '=')] else pair
  }

  /** The value of a `name=value` pair; a pair without `=` has the empty value. */
  function PairValue(pair: string): string {
    if '=' in pair then pair[IndexOf(pair, '=') + 1..] else ""
  }

  /** The value of the first pair called `name`. */
  function FirstValue(pairs: seq<string>, name: string): (v: Option<string>)
    ensures v.None? <==> forall i :: 0 <= i < |pairs| ==> PairName(pairs[i]) != name
  {
    if |pairs| == 0 then None
    else if PairName(pairs[0]) == name then Some(PairValue(pairs[0]))
    else FirstValue(pairs[1..], name)
  }

  /** `new URL(url).searchParams.get(name)`: `None` stands for `null`. */
  function SearchParam(url: string, name: string): Option<string> {
    FirstValue(Split(Query(url), '&'), name)
  }

  /** A `name=value` pair whose name has no `=` reads back as that name and value. */
  lemma PairOf(name: string, value: string)
    requires '=' !in name
    ensures PairName(name + "=" + value) == name
    ensures PairValue(name + "=" + value) == value
  {
    var pair := name + "=" + value;
    assert pair == name + ("=" + value);
    IndexOfAfter(name, "=" + value, '=');
    assert pair[..|name|] == name;
    assert pair[|name| + 1..] == value;
  }

  /** The query of `path?query`, for a path without `?`. */
  lemma QueryAfterPath(path: string, query: string)
    requires '?' !in path
    ensures Query(path + "?" + query) == query
  {
    var url := path + "?" + query;
    assert url == path + ("?" + query);
    IndexOfAfter(path, "?" + query, '?');
    assert url[|path| + 1..] == query;
  }

  /** Two parts without `&` joined by `&` split back into those parts. */
  lemma SplitTwo(p1: string, p2: string)
    requires '&' !in p1 && '&' !in p2
    ensures Split(p1 + "&" + p2, '&') == [p1, p2]
  {
    SplitFirst(p1, p2, '&');
    assert p1 + "&" + p2 == p1 + ['&'] + p2;
  }

  /**
   * A URL `path?first=x&second=y`, with no `?` in the path and no `&` in the values, carries
   * `x` as its `first` parameter and `y` as its `second`.
   */
  lemma TwoParams(path: string, first: string, x: string, second: string, y: string)
    requires '?' !in path && '=' !in first && '=' !in second && first != second
    requires '&' !in first && '&' !in x && '&' !in second && '&' !in y
    ensures SearchParam(path + "?" + first + "=" + x + "&" + second + "=" + y, first) == Some(x)
    ensures SearchParam(path + "?" + first + "=" + x + "&" + second + "=" + y, second) == Some(y)
  {
    var p1 := first + "=" + x;
    var p2 := second + "=" + y;
    var url := path + "?" + first + "=" + x + "&" + second + "=" + y;
    assert url == path + "?" + (p1 + "&" + p2);
    QueryAfterPath(path, p1 + "&" + p2);
    assert '&' !in p1 && '&' !in p2;
    SplitTwo(p1, p2);
    PairOf(first, x);
    PairOf(second, y);
    assert FirstValue([p1, p2], first) == Some(x);
    assert FirstValue([p1, p2], second) == FirstValue([p2], second);
  }
}
